=== FILE: README.md ===
# Sales ETL cleaning and star schema, in Dafny

This project models the transformation core of a PySpark sales ETL job
(`src/transform/transform_sales_data.py`). The job reads three raw tables:
customers, products and sales. It cleans each table with row-level filters,
column repairs, window deduplications and key-membership joins, then
assembles a star schema: a `fact_sales` table and two dimensions,
`dim_customer` and `dim_product`.

The model follows the DataFrame operations step by step.

- A table is a `seq` of rows, in a fixed input order.
- A row is a datatype whose columns are all `Option`, where `None` is SQL NULL.
- A comparison filter on a NULL column drops the row, and a `when` clamp
  leaves a NULL as NULL, exactly as Spark does.
- `row_number() == 1` over a window keeps the first row of each partition in
  window order. The order sorts NULLs first and breaks ties by input position.
- An inner join against a key column keeps each row once per matching
  dimension row. It keeps that multiplicity rather than assuming keys are
  unique, and a NULL key never matches.
- Dates are day numbers, and the processing date `today` stands for
  `current_date()`.
- Prices, amounts, weights and ratings are exact reals.

Modules:

| file | module | models |
|---|---|---|
| `wrappers.dfy` | `Wrappers` | nullable values |
| `seqs.dfy` | `Seqs` | `filter`, `row_number()` deduplication, inner join on a key column |
| `email.dfy` | `Email` | the address regex of `clean_customers` |
| `records.dfy` | `Records` | raw rows, dimension rows, fact rows, `fillna` on one cell |
| `customers.dfy` | `CustomerCleaning` | `clean_customers` |
| `products.dfy` | `ProductCleaning` | `clean_products` |
| `sales.dfy` | `SaleCleaning` | `clean_sales` |
| `star.dfy` | `StarSchema` | `create_star_schema` and the cleaning sequence of `main` |

Behaviour of the code worth knowing:

- Customers are deduplicated by email, keeping the row with the lowest
  `customer_id` (NULL first). Two emails that share a customer_id both
  survive; `CustomerCleaning.CleanCustomersMayRepeatId` proves this.
- A customer with a NULL email is dropped.
- Ratings outside [0, 5] and discounts outside [0, 100] are clamped to the
  nearer bound, and negative stock is clamped to 0.
- A NULL discount stays NULL, so the discount and the total of that fact row
  are NULL.
- The amounts are computed without rounding.
- `create_star_schema` joins without checking that every key refers to a
  dimension row. `StarSchema.FactRefersToDimensions` proves that the cleaned
  tables make this hold.
- `dim_customer` leaves out `phone`, and `dim_product` leaves out
  `stock_quantity` and `weight_kg`. The phone, stock and weight repairs
  therefore never reach the emitted tables.

## Model

| member | source | states |
|---|---|---|
| Email.IsValidEmailIffPattern | src/transform/transform_sales_data.py:41-42 | The decision procedure splits at the first '@' and the last '.' of the host. It accepts a string exactly when the string is in the language of `^[a-zA-Z0-9._%+-]+@[a-zA-Z0-9.-]+\.[a-zA-Z]{2,}$` (both directions) |
| Email.IsValidEmail | src/transform/transform_sales_data.py:41-42 | An accepted address is at least six characters long ("a@b.cd"), starts with a local-part character and ends in two ASCII letters of the top-level domain |
| Email.RlikeEmailPattern | src/transform/transform_sales_data.py:41-42 | `rlike` with Java's `$` accepts nothing beyond the check's own language except strings that end in a line terminator |
| Email.RlikeAcceptsTrailingNewline | src/transform/transform_sales_data.py:42 | `rlike` as written, with Java's `$`, accepts every valid address and also the address followed by "\n". That second string is outside the pattern's language |
| Email.RejectsAddressWithoutAt | src/transform/transform_sales_data.py:41-42 | "not-an-email" is rejected |
| Email.RejectsHostWithoutDot | src/transform/transform_sales_data.py:41-42 | A local part, '@' and a host without a dot (`user@invalid`) is rejected |
| Records.FillUnknown | src/transform/transform_sales_data.py:50-53 | The filled cell is never NULL. A present value is kept, and a NULL becomes "Unknown" |
| CustomerCleaning.DropMissingEmail | src/transform/transform_sales_data.py:38 | A row survives if and only if it is an input row with a non-null email, and every copy of such a row survives: its multiplicity is kept |
| CustomerCleaning.KeepValidEmail | src/transform/transform_sales_data.py:41-42 | A row survives if and only if it is an input row whose email is present and well-formed, with its multiplicity kept |
| CustomerCleaning.DedupeByEmail | src/transform/transform_sales_data.py:45-47 | The output is a sub-multiset of the input with pairwise distinct emails |
| CustomerCleaning.DedupeByEmailCovers | src/transform/transform_sales_data.py:45-47 | Every email of the input keeps a row |
| CustomerCleaning.DedupeByEmailKeepsLowestId | src/transform/transform_sales_data.py:45-47 | No input row with the same email has a customer_id ordered before the kept row's (NULL first) |
| CustomerCleaning.FillMissingContacts | src/transform/transform_sales_data.py:50-53 | The row count is unchanged. Phone and city become non-null: a present value is kept, a NULL becomes "Unknown", and every other column is unchanged |
| CustomerCleaning.CleanCustomers | src/transform/transform_sales_data.py:38-53 | Every output row has a present, well-formed email and a non-null phone and city. Emails are pairwise distinct, and there are no more rows than in the input |
| CustomerCleaning.CleanEmailsMatchPattern | src/transform/transform_sales_data.py:38-42 | Every cleaned email lies in the language of the regex |
| CustomerCleaning.CleanCustomersProvenance | src/transform/transform_sales_data.py:38-53 | Every cleaned row is an input row with a valid email, contacts filled. Its customer_id is the lowest among the input rows sharing its email |
| CustomerCleaning.CleanCustomersCoverEmails | src/transform/transform_sales_data.py:38-47 | Every input row with a valid email has its email in the output |
| CustomerCleaning.CleanCustomersIdempotent | src/transform/transform_sales_data.py:38-53 | Cleaning cleaned customers changes nothing |
| CustomerCleaning.CleanCustomersMayRepeatId | src/transform/transform_sales_data.py:45-47 | Two rows with one customer_id and different valid emails both survive, so the id repeats |
| ProductCleaning.ClampStock | src/transform/transform_sales_data.py:83-87 | NULL stays NULL, a negative stock becomes 0, and a non-negative stock is unchanged |
| ProductCleaning.ClampRating | src/transform/transform_sales_data.py:104-109 | NULL stays NULL, a rating above 5 becomes 5.0, one below 0 becomes 0.0, and one in [0, 5] is unchanged |
| ProductCleaning.ImputeWeight | src/transform/transform_sales_data.py:93-101 | A present weight is kept. A missing weight takes its category's median. A NULL category matches no median and keeps a NULL weight |
| ProductCleaning.RepairProduct | src/transform/transform_sales_data.py:83-109 | Key, name, category and price are kept. Stock, supplier, weight and rating are the clamped, filled and imputed values |
| ProductCleaning.KeepPositivePrice | src/transform/transform_sales_data.py:80 | A row survives if and only if it is an input row with a present, positive price, with its multiplicity kept |
| ProductCleaning.CleanProducts | src/transform/transform_sales_data.py:80-115 | The cleaned table has one row per positively priced input row, in order. Each row keeps that input row's product_id, name, category and price, with stock and rating clamped, supplier filled and weight imputed |
| ProductCleaning.CleanProductsShape | src/transform/transform_sales_data.py:80-109 | Only the price filter removes rows. Output row i is the i-th positively priced input row with product_id, name, category and price kept, stock and rating clamped (an in-range value kept as it is), supplier filled and weight imputed. The row satisfies the cleaned-product invariants |
| ProductCleaning.CleanProductIsClean | src/transform/transform_sales_data.py:80-109 | Every cleaned product has a positive price, non-negative stock, a rating in [0, 5] and a supplier |
| ProductCleaning.RepairKeepsInRange | src/transform/transform_sales_data.py:83-109 | Stock and rating already in range pass through the repairs unchanged |
| ProductCleaning.RepairIdempotent | src/transform/transform_sales_data.py:83-109 | Repairing a repaired row changes nothing |
| ProductCleaning.CleanProductsIdempotent | src/transform/transform_sales_data.py:80-109 | Cleaning cleaned products with the same medians changes nothing |
| ProductCleaning.NonPositiveDuplicateDropped | src/transform/transform_sales_data.py:80 | Of two rows sharing a product_id, one priced positively and one not, only the first comes through, repaired |
| SaleCleaning.CustomerKeys | src/transform/transform_sales_data.py:141 | The selected key column holds, row for row, each customer's id, so it contains a key exactly when some customer carries it |
| SaleCleaning.ProductKeys | src/transform/transform_sales_data.py:149 | The selected key column holds, row for row, each product's id, so it contains a key exactly when some product carries it |
| SaleCleaning.ClampDiscount | src/transform/transform_sales_data.py:160-165 | NULL stays NULL, a discount above 100 becomes 100, one below 0 becomes 0, and one in [0, 100] is unchanged |
| SaleCleaning.PassingSales | src/transform/transform_sales_data.py:132-157 | A row survives the date filters, both inner joins and the quantity filter exactly when it is an input sale passing all of those checks |
| SaleCleaning.CheckedSales | src/transform/transform_sales_data.py:132-165 | Every row reaching the deduplication passes every check and its discount is already clamped |
| SaleCleaning.CheckedSaleSource | src/transform/transform_sales_data.py:132-165 | Every row reaching the deduplication is an input sale that passed every check, discount clamped |
| SaleCleaning.CheckedSaleKept | src/transform/transform_sales_data.py:132-165 | Every input sale passing every check reaches the deduplication, discount clamped |
| SaleCleaning.DedupeBySaleId | src/transform/transform_sales_data.py:168-170 | The output is a sub-multiset of the input with pairwise distinct sale_ids |
| SaleCleaning.CleanSales | src/transform/transform_sales_data.py:132-170 | The cleaned sale_ids are pairwise distinct |
| SaleCleaning.CleanSalesSound | src/transform/transform_sales_data.py:132-165 | Every cleaned sale is an input sale with its discount clamped. It has a date no later than `today`, a customer among the cleaned customers, a product among the cleaned products, a positive quantity, and a NULL or in-range discount |
| SaleCleaning.CleanSalesComplete | src/transform/transform_sales_data.py:168-170 | A sale_id carried by some fully valid input sale survives, even when another row with that id failed a check |
| SaleCleaning.CleanSalesEarliest | src/transform/transform_sales_data.py:168-170 | The kept row of a sale_id is dated no later than any valid input row with that id |
| SaleCleaning.CleanSaleIsFixed | src/transform/transform_sales_data.py:132-165 | A cleaned sale passes every check again, and clamping its discount changes nothing |
| SaleCleaning.PassingSalesUniqueIsFilter | src/transform/transform_sales_data.py:132-157 | Against unique customer and product keys, the date filters, both inner joins and the quantity filter together are one filter by every check: no sale is duplicated |
| SaleCleaning.CheckedSalesOfChecked | src/transform/transform_sales_data.py:132-165 | Rows that already pass every check come through the filters, joins and clamp unchanged when keys are unique |
| SaleCleaning.DedupeCheckedOfClean | src/transform/transform_sales_data.py:142-170 | Rows that pass every check, with clamped discounts and distinct sale_ids, come back unchanged from the checks and the deduplication, however many copies a repeated dimension key makes in the joins |
| SaleCleaning.CleanSalesIdempotent | src/transform/transform_sales_data.py:132-170 | Cleaning cleaned sales against the same customers and products changes nothing, also when a customer_id or product_id repeats in those tables |
| SaleCleaning.OrphanCustomerDropped | src/transform/transform_sales_data.py:141-146 | No cleaned sale names a customer_id that no cleaned customer carries |
| Seqs.FilterCount | src/transform/transform_sales_data.py:80 | A filter keeps every copy of a passing row and no copy of a failing one |
| Seqs.FilterConcat | src/transform/transform_sales_data.py:80 | Filtering a concatenation filters each part |
| Seqs.FilterFilter | src/transform/transform_sales_data.py:132-157 | Two filters in a row are one filter by the conjunction |
| Seqs.FilterKeepsAll | src/transform/transform_sales_data.py:80 | A filter that every row passes removes nothing |
| Seqs.FilterKeepsDistinct | src/transform/transform_sales_data.py:80 | A key that no two rows share is still unshared after a filter |
| Seqs.PrecedesTotalOrder | src/transform/transform_sales_data.py:45 | The window order, with input position breaking ties, is a strict total order |
| Seqs.KeepFirstPerPartition | src/transform/transform_sales_data.py:45-47 | Partition keys of the output are pairwise distinct, and the output is a sub-multiset of the input |
| Seqs.KeepFirstMembership | src/transform/transform_sales_data.py:45-47 | A row survives exactly when it comes first in window order within its partition (both directions) |
| Seqs.KeepFirstCoversPartitions | src/transform/transform_sales_data.py:45-47 | Every partition of the input keeps a row |
| Seqs.KeepFirstIsMinimal | src/transform/transform_sales_data.py:45-47 | No row of a partition sorts before the row kept for it |
| Seqs.KeepFirstConcat | src/transform/transform_sales_data.py:168-170 | Two tables with no partition key in common deduplicate independently |
| Seqs.KeepFirstOfBlock | src/transform/transform_sales_data.py:168-170 | Copies of one row deduplicate to that row |
| Seqs.KeepFirstOfDistinct | src/transform/transform_sales_data.py:45-47 | When partition keys are already distinct, the deduplication is the identity |
| Seqs.MatchCount | src/transform/transform_sales_data.py:142-146 | A key matches no dimension row exactly when it is NULL or absent |
| Seqs.InnerJoinKeys | src/transform/transform_sales_data.py:142-154 | A row survives the join exactly when its key is non-null and present in the key column. Its multiplicity in the output is its multiplicity in the input times the number of dimension rows carrying its key |
| Seqs.InnerJoinConcat | src/transform/transform_sales_data.py:142-154 | Joining a concatenation joins each part |
| Seqs.InnerJoinBlock | src/transform/transform_sales_data.py:142-154 | Copies of a matching row come out of the join as one or more copies of it |
| Seqs.MatchCountUnique | src/transform/transform_sales_data.py:142-154 | Against unique keys, a present key matches exactly one row |
| Seqs.InnerJoinUniqueIsFilter | src/transform/transform_sales_data.py:142-154 | Against unique keys the join is the filter by key presence: it never duplicates a row |
| StarSchema.DimCustomers | src/transform/transform_sales_data.py:189-197 | One dimension row per cleaned customer, in order, carrying its customer_id, name, email, country, registration_date, segment and city |
| StarSchema.DimProducts | src/transform/transform_sales_data.py:200-207 | One dimension row per cleaned product, in order, carrying its product_id, product_name, category, unit_price, supplier and rating |
| StarSchema.AmountBeforeDiscount | src/transform/transform_sales_data.py:217-220 | NULL exactly when quantity or price is NULL; positive for a positive quantity and price |
| StarSchema.DiscountAmount | src/transform/transform_sales_data.py:222-225 | NULL exactly when the amount or the percentage is NULL; within [0, amount] for a non-negative amount and a percentage in [0, 100] |
| StarSchema.TotalAmount | src/transform/transform_sales_data.py:227-230 | NULL exactly when the amount or the discount is NULL; total plus discount gives back the amount |
| StarSchema.PriceSale | src/transform/transform_sales_data.py:217-246 | Every sale column is carried into the fact row with the attached price. The discount and the total are present exactly when quantity, price and percentage are, and then add up to the amount |
| StarSchema.AmountsBounded | src/transform/transform_sales_data.py:217-230 | For a positive quantity and price and a discount in [0, 100], all amounts are present. Total plus discount equals the amount before discount. The total is the amount scaled by (100 - d)/100, and both lie in [0, amount] |
| StarSchema.ThreeAtTwentyWithTenPercentOff | src/transform/transform_sales_data.py:217-230 | 3 units at 20.00 with 10% off give 60.00, 6.00 and 54.00 |
| StarSchema.PricesOf | src/transform/transform_sales_data.py:210-214 | The prices the join attaches to a sale are exactly those of the product rows carrying its non-null product_id |
| StarSchema.PricesOfCount | src/transform/transform_sales_data.py:210-214 | The join attaches one price per matching product row |
| StarSchema.FactRows | src/transform/transform_sales_data.py:210-214 | The left join yields no fewer rows than there are sales. `FactRowsCoverSales` and `FactRowsPriceEach` give the per-sale statement |
| StarSchema.FactRowsPriceEach | src/transform/transform_sales_data.py:210-214 | Each sale reaches fact_sales priced by every product row carrying its id, or once with a NULL price when no row does. With `FactRowSource` this is the left join in both directions |
| StarSchema.FactRowsCount | src/transform/transform_sales_data.py:210-214 | fact_sales has, per sale, as many rows as product rows carry its id, and one when none does |
| StarSchema.FactRowsCoverSales | src/transform/transform_sales_data.py:210-214 | Every sale has a fact row with its sale_id: the left join drops nothing |
| StarSchema.FactRowSource | src/transform/transform_sales_data.py:210-246 | Every fact row is a sale priced with a matching product's price, or with NULL when no product matches |
| StarSchema.FactRowsOnePerSale | src/transform/transform_sales_data.py:210-214 | With unique product ids the left join yields exactly one fact row per sale, in order, with its sale_id |
| StarSchema.DuplicateProductIdDuplicatesFact | src/transform/transform_sales_data.py:210-214 | Two product rows sharing an id turn one sale into two fact rows with the same sale_id |
| StarSchema.CreateStarSchema | src/transform/transform_sales_data.py:179-252 | The dimensions have one row per input customer and product, with its key, and `fact_sales` has at least one row per sale, carrying its sale_id |
| StarSchema.RunPipeline | src/transform/transform_sales_data.py:291-301 | The dimensions are no larger than the raw tables, every `dim_customer` email is well-formed and every `dim_product` price is positive |
| StarSchema.CleanCustomerDimension | src/transform/transform_sales_data.py:189-197 | `dim_customer` built from `clean_customers` has no more rows than the raw table and a well-formed email in every row |
| StarSchema.CleanProductDimension | src/transform/transform_sales_data.py:200-207 | `dim_product` built from `clean_products` has no more rows than the raw table and a positive price in every row |
| StarSchema.PipelineFactSource | src/transform/transform_sales_data.py:291-301 | Every fact row of the pipeline is a cleaned sale priced with the price of a cleaned product carrying its product_id |
| StarSchema.FactRefersToDimensions | src/transform/transform_sales_data.py:291-301 | Every fact row's customer_id and product_id are non-null and occur in `dim_customer` and `dim_product`, and its sale date is no later than `today` |
| StarSchema.PricedSaleConsistent | src/transform/transform_sales_data.py:217-230 | A sale with a positive quantity and price and a NULL or in-range discount satisfies the fact invariants, including discount = amount x percentage / 100 |
| StarSchema.FactAmountsConsistent | src/transform/transform_sales_data.py:217-246 | Every fact row of the pipeline has a positive quantity and price and amount = quantity x price. A present discount percentage lies in [0, 100], the discount is amount x percentage / 100, and total + discount = amount, both in [0, amount]. A NULL discount leaves both NULL |
| StarSchema.CleanProductsKeepIdsUnique | src/transform/transform_sales_data.py:80 | Product ids unique in the input stay unique after cleaning |
| StarSchema.FactSaleIdsUnique | src/transform/transform_sales_data.py:291-301 | With unique input product ids, `fact_sales` has one row per cleaned sale and pairwise distinct sale_ids |

## Left out

- Spark session creation, CSV reading and writing, `coalesce` and the
  `count()`/`print` logging are I/O. `StarSchema.RunPipeline` keeps only the
  order of the cleaning calls and the assembly in `main`.
- `to_date` parsing of `registration_date` and `date` is a library parser.
  Dates arrive already parsed as day numbers.
- `current_date()` is a clock. It is the parameter `today`.
- `ProductCleaning.ImputeWeight` does not model `percentile_approx`, which is
  an approximate floating-point aggregate. The per-category median is the
  parameter `medianOf`.
- `ProductCleaning.CleanProductsIdempotent` reuses the same `medianOf` on the
  second run. Spark would recompute the medians from the cleaned table.
- Floating point is not modelled. Prices, amounts, ratings and weights are
  exact reals, so the monetary identity holds exactly rather than up to
  rounding. Spark's conversion of the integer `discount_percent / 100` to a
  double is modelled as real division.
- Spark's partitioned execution does not fix a tie-break between equal window
  order keys. The model breaks ties by input position.
- StarSchema.FactRows: the model states membership in both directions
  (`FactRowsPriceEach`, `FactRowSource`) and the total row count
  (`FactRowsCount`). It does not state how many copies of each individual fact
  row there are. Two product rows with the same id and the same price give two
  equal fact rows, and only the total count records both.
- `StarSchema.FactSaleIdsUnique` requires unique product ids in the raw
  products, because the left join duplicates a sale when a product id repeats.
  `StarSchema.DuplicateProductIdDuplicatesFact` shows the duplication.
- CustomerCleaning.KeepValidEmail filters with the full-match check
  `Email.IsValidEmail`, not with `rlike` as written. The two differ only on
  an address followed by one line terminator (see Findings).
- `scripts/generate_sample_data.py` generates random sample data and is not
  part of this model.

## Findings

| source | as written | input that shows it | evidently intended | confidence | as-written member | corrected member |
|---|---|---|---|---|---|---|
| src/transform/transform_sales_data.py:41-42 | The pattern ends in `$`, and `rlike` hands it to java.util.regex. There, `$` without MULTILINE also matches just before one final line terminator | `"a@b.cd\n"` passes the check and keeps its trailing newline | Only strings in the language of the pattern pass (`\z`, or a full match) | medium, not executed | Email.RlikeEmailPattern (exhibited by Email.RlikeAcceptsTrailingNewline) | Email.IsValidEmail (proved equal to the pattern's language by Email.IsValidEmailIffPattern; used by CustomerCleaning) |

=== FILE: customers.dfy ===
/**
 * `clean_customers`: drop rows without an email, keep the well-formed
 * addresses, keep one row per email (the lowest customer_id), and fill an
 * empty phone or city with "Unknown".
 */
module CustomerCleaning {
  import opened Wrappers
  import opened Seqs
  import opened Email
  import opened Records

  /** `filter(email.isNotNull())` */
  function DropMissingEmail(rows: seq<Customer>): (r: seq<Customer>)
    ensures |r| <= |rows|
    ensures forall c :: c in r <==> c in rows && c.email.Some?
    ensures forall c :: multiset(r)[c] == if c.email.Some? then multiset(rows)[c] else 0
  {
    var r := Filter(rows, (c: Customer) => c.email.Some?);
    assert forall c :: multiset(r)[c] == if c.email.Some? then multiset(rows)[c] else 0 by {
      forall c ensures multiset(r)[c] == if c.email.Some? then multiset(rows)[c] else 0 {
        FilterCount(rows, (c: Customer) => c.email.Some?, c);
      }
    }
    r
  }

  /**
   * The email is present and lies in the language of the address pattern.
   * This is the full-match check `Email.IsValidEmail`, not `rlike` as
   * written, which also lets one trailing line terminator through.
   */
  predicate HasValidEmail(c: Customer) {
    c.email.Some? && IsValidEmail(c.email.value)
  }

  /** The address filter of `clean_customers`, with the full-match check in place of `rlike`. */
  function KeepValidEmail(rows: seq<Customer>): (r: seq<Customer>)
    ensures |r| <= |rows|
    ensures forall c :: c in r <==> c in rows && HasValidEmail(c)
    ensures forall c :: multiset(r)[c] == if HasValidEmail(c) then multiset(rows)[c] else 0
  {
    var r := Filter(rows, HasValidEmail);
    assert forall c :: multiset(r)[c] == if HasValidEmail(c) then multiset(rows)[c] else 0 by {
      forall c ensures multiset(r)[c] == if HasValidEmail(c) then multiset(rows)[c] else 0 {
        FilterCount(rows, HasValidEmail, c);
      }
    }
    r
  }

  function EmailOf(c: Customer): Option<string> {
    c.email
  }

  function CustomerIdOf(c: Customer): Option<int> {
    c.customerId
  }

  /**
   * `row_number() over (partitionBy("email").orderBy("customer_id")) == 1`:
   * one row per email, the one with the lowest customer_id (a NULL id sorts
   * first; equal ids keep the earlier row).
   */
  function DedupeByEmail(rows: seq<Customer>): (r: seq<Customer>)
    ensures |r| <= |rows|
    ensures multiset(r) <= multiset(rows)
    ensures forall a, b :: 0 <= a < b < |r| ==> r[a].email != r[b].email
  {
    KeepFirstPerPartition(rows, EmailOf, CustomerIdOf)
  }

  /** Every email of the input keeps a row. */
  lemma DedupeByEmailCovers(rows: seq<Customer>, y: Customer)
    requires y in rows
    ensures exists c :: c in DedupeByEmail(rows) && c.email == y.email
  {
    var i :| 0 <= i < |rows| && rows[i] == y;
    KeepFirstCoversPartitions(rows, EmailOf, CustomerIdOf, i);
  }

  /** The kept row of an email has the lowest customer_id among the rows with that email. */
  lemma DedupeByEmailKeepsLowestId(rows: seq<Customer>, c: Customer, y: Customer)
    requires c in DedupeByEmail(rows)
    requires y in rows && y.email == c.email
    ensures !SortsBefore(y.customerId, c.customerId)
  {
    var j :| 0 <= j < |rows| && rows[j] == y;
    KeepFirstIsMinimal(rows, EmailOf, CustomerIdOf, c, j);
  }

  /** `fillna({"phone": "Unknown", "city": "Unknown"})` on one row. */
  function FillContact(c: Customer): Customer {
    c.(phone := FillUnknown(c.phone), city := FillUnknown(c.city))
  }

  /**
   * `fillna({"phone": "Unknown", "city": "Unknown"})`: empty phones and cities
   * become "Unknown", present ones and every other column stay, and no row is
   * added or removed.
   */
  function FillMissingContacts(rows: seq<Customer>): (r: seq<Customer>)
    ensures |r| == |rows|
    ensures forall i :: 0 <= i < |r| ==> r[i].phone.Some? && r[i].city.Some?
    ensures forall i :: 0 <= i < |r| ==>
      (rows[i].phone.Some? ==> r[i].phone == rows[i].phone) &&
      (rows[i].phone.None? ==> r[i].phone == Some(Unknown)) &&
      (rows[i].city.Some? ==> r[i].city == rows[i].city) &&
      (rows[i].city.None? ==> r[i].city == Some(Unknown))
    ensures forall i :: 0 <= i < |r| ==> r[i].(phone := rows[i].phone, city := rows[i].city) == rows[i]
  {
    Map(rows, FillContact)
  }

  /** The rows that reach the deduplication. */
  function Validated(rows: seq<Customer>): seq<Customer> {
    KeepValidEmail(DropMissingEmail(rows))
  }

  /** Every row surviving the deduplication has a well-formed email. */
  lemma DedupedEmailsValid(rows: seq<Customer>)
    ensures forall i :: 0 <= i < |DedupeByEmail(Validated(rows))| ==> HasValidEmail(DedupeByEmail(Validated(rows))[i])
  {
    var kept := DedupeByEmail(Validated(rows));
    forall i | 0 <= i < |kept| ensures HasValidEmail(kept[i]) {
      assert kept[i] in multiset(kept);
    }
  }

  /** Filling contacts keeps every email where it was. */
  lemma FillKeepsEmails(rows: seq<Customer>)
    ensures forall i :: 0 <= i < |rows| ==> FillMissingContacts(rows)[i].email == rows[i].email
  {
  }

  /** The whole of `clean_customers` (date parsing aside). */
  function CleanCustomers(rows: seq<Customer>): (r: seq<Customer>)
    ensures |r| <= |rows|
    ensures forall i :: 0 <= i < |r| ==> HasValidEmail(r[i]) && r[i].phone.Some? && r[i].city.Some?
    ensures forall a, b :: 0 <= a < b < |r| ==> r[a].email != r[b].email
  {
    var kept := DedupeByEmail(Validated(rows));
    DedupedEmailsValid(rows);
    FillKeepsEmails(kept);
    FillMissingContacts(kept)
  }

  /** The address of every cleaned customer lies in the language of the pattern. */
  lemma CleanEmailsMatchPattern(rows: seq<Customer>, i: int)
    requires 0 <= i < |CleanCustomers(rows)|
    ensures CleanCustomers(rows)[i].email.Some?
    ensures MatchesEmailPattern(CleanCustomers(rows)[i].email.value)
  {
    IsValidEmailIffPattern(CleanCustomers(rows)[i].email.value);
  }

  /** A row of the cleaned table is the filled copy of a row kept by the deduplication. */
  lemma CleanCustomerSource(rows: seq<Customer>, c: Customer) returns (d: Customer)
    requires c in CleanCustomers(rows)
    ensures d in DedupeByEmail(Validated(rows))
    ensures d in rows && HasValidEmail(d) && c == FillContact(d)
  {
    var kept := DedupeByEmail(Validated(rows));
    var cleaned := FillMissingContacts(kept);
    assert CleanCustomers(rows) == cleaned;
    var k :| 0 <= k < |cleaned| && cleaned[k] == c;
    d := kept[k];
    assert d in multiset(kept);
    assert d in Validated(rows);
  }

  lemma InValidated(rows: seq<Customer>, x: Customer)
    requires x in rows && HasValidEmail(x)
    ensures x in Validated(rows)
  {
  }

  /** The row kept for an email has the lowest id among all input rows with that email. */
  lemma ValidatedKeepsLowestId(rows: seq<Customer>, d: Customer, j: int)
    requires d in DedupeByEmail(Validated(rows)) && HasValidEmail(d)
    requires 0 <= j < |rows| && rows[j].email == d.email
    ensures !SortsBefore(rows[j].customerId, d.customerId)
  {
    InValidated(rows, rows[j]);
    DedupeByEmailKeepsLowestId(Validated(rows), d, rows[j]);
  }

  /**
   * Every cleaned customer is an input row with a well-formed email, with its
   * contacts filled, and holds the lowest customer_id among the input rows
   * sharing its email.
   */
  lemma CleanCustomersProvenance(rows: seq<Customer>, c: Customer, j: int)
    requires c in CleanCustomers(rows)
    requires 0 <= j < |rows| && rows[j].email == c.email
    ensures exists d :: d in rows && HasValidEmail(d) && c == FillContact(d)
    ensures !SortsBefore(rows[j].customerId, c.customerId)
  {
    var d := CleanCustomerSource(rows, c);
    ValidatedKeepsLowestId(rows, d, j);
  }

  /** No well-formed address is lost: each one still has a customer row. */
  lemma CleanCustomersCoverEmails(rows: seq<Customer>, d: Customer)
    requires d in rows && HasValidEmail(d)
    ensures exists c :: c in CleanCustomers(rows) && c.email == d.email
  {
    InValidated(rows, d);
    var kept := DedupeByEmail(Validated(rows));
    DedupeByEmailCovers(Validated(rows), d);
    var c :| c in kept && c.email == d.email;
    FilledRowOf(kept, c);
  }

  /** A row of the deduplicated table reappears, filled, in the cleaned table. */
  lemma FilledRowOf(kept: seq<Customer>, c: Customer)
    requires c in kept
    ensures FillContact(c) in FillMissingContacts(kept)
  {
    var k :| 0 <= k < |kept| && kept[k] == c;
    assert FillMissingContacts(kept)[k] == FillContact(c);
  }

  /** Cleaning cleaned customers changes nothing. */
  lemma CleanCustomersIdempotent(rows: seq<Customer>)
    ensures CleanCustomers(CleanCustomers(rows)) == CleanCustomers(rows)
  {
    var r := CleanCustomers(rows);
    FilterKeepsAll(r, (c: Customer) => c.email.Some?);
    FilterKeepsAll(r, HasValidEmail);
    KeepFirstOfDistinct(r, EmailOf, CustomerIdOf);
    assert FillMissingContacts(r) == r;
  }

  /**
   * Deduplication is by email, not by customer_id: two rows sharing an id
   * but carrying different valid addresses both survive, so the cleaned
   * table repeats the id.
   */
  lemma CleanCustomersMayRepeatId(rows: seq<Customer>)
    requires |rows| == 2 && HasValidEmail(rows[0]) && HasValidEmail(rows[1])
    requires rows[0].email != rows[1].email && rows[0].customerId == rows[1].customerId
    ensures var r := CleanCustomers(rows);
      |r| == 2 && r[0].customerId == rows[0].customerId && r[1].customerId == rows[0].customerId
  {
    var r := CleanCustomers(rows);
    CleanCustomersCoverEmails(rows, rows[0]);
    CleanCustomersCoverEmails(rows, rows[1]);
    var c0 :| c0 in r && c0.email == rows[0].email;
    var c1 :| c1 in r && c1.email == rows[1].email;
    TwoMembersTwoRows(r, c0, c1);
    PairSharesId(rows);
    SourceKeepsId(rows, rows[0].customerId, r[0]);
    SourceKeepsId(rows, rows[0].customerId, r[1]);
  }

  lemma TwoMembersTwoRows(r: seq<Customer>, x: Customer, y: Customer)
    requires x in r && y in r && x != y
    ensures |r| >= 2
  {
  }

  lemma PairSharesId(rows: seq<Customer>)
    requires |rows| == 2 && rows[0].customerId == rows[1].customerId
    ensures forall d :: d in rows ==> d.customerId == rows[0].customerId
  {
  }

  /** A cleaned row carries an id every input row carries. */
  lemma SourceKeepsId(rows: seq<Customer>, id: Option<int>, c: Customer)
    requires forall d :: d in rows ==> d.customerId == id
    requires c in CleanCustomers(rows)
    ensures c.customerId == id
  {
    var d := CleanCustomerSource(rows, c);
  }
}

=== FILE: email.dfy ===
/**
 * The address check of `clean_customers`:
 *   ^[a-zA-Z0-9._%+-]+@[a-zA-Z0-9.-]+\.[a-zA-Z]{2,}$
 * `MatchesEmailPattern` is the language the pattern denotes over the whole
 * string; `IsValidEmail` decides it by splitting at the '@' and at the last
 * '.'; `RlikeEmailPattern` is what `rlike` accepts with Java's `$`.
 */
module Email {
  import opened Wrappers

  predicate IsAsciiLetter(c: char) {
    'a' <= c <= 'z' || 'A' <= c <= 'Z'
  }

  predicate IsAsciiDigit(c: char) {
    '0' <= c <= '9'
  }

  /** `[a-zA-Z0-9._%+-]` */
  predicate IsLocalChar(c: char) {
    IsAsciiLetter(c) || IsAsciiDigit(c) || c == '.' || c == '_' || c == '%' || c == '+' || c == '-'
  }

  /** `[a-zA-Z0-9.-]` */
  predicate IsDomainChar(c: char) {
    IsAsciiLetter(c) || IsAsciiDigit(c) || c == '.' || c == '-'
  }

  predicate All(s: string, p: char -> bool) {
    forall i :: 0 <= i < |s| ==> p(s[i])
  }

  /**
   * `s` splits at `at` and `dot` into a non-empty local part, '@', a
   * non-empty domain, '.', and a top-level domain of two or more letters.
   */
  ghost predicate SplitsAsEmail(s: string, at: int, dot: int) {
    && 0 < at && at + 1 < dot && dot + 2 < |s|
    && s[at] == '@' && s[dot] == '.'
    && All(s[..at], IsLocalChar)
    && All(s[at + 1..dot], IsDomainChar)
    && All(s[dot + 1..], IsAsciiLetter)
  }

  /** The strings the pattern denotes. */
  ghost predicate MatchesEmailPattern(s: string) {
    exists at, dot :: SplitsAsEmail(s, at, dot)
  }

  /** Position of the first `c` in `s`. */
  function FirstIndexOf(s: string, c: char): (r: Option<nat>)
    ensures r.None? <==> c !in s
    ensures r.Some? ==> r.value < |s| && s[r.value] == c && c !in s[..r.value]
  {
    if |s| == 0 then None
    else if s[0] == c then Some(0)
    else
      match FirstIndexOf(s[1..], c)
      case None => None
      case Some(i) =>
        assert s[..i + 1] == [s[0]] + s[1..][..i];
        Some(i + 1)
  }

  /** Position of the last `c` in `s`. */
  function LastIndexOf(s: string, c: char): (r: Option<nat>)
    ensures r.None? <==> c !in s
    ensures r.Some? ==> r.value < |s| && s[r.value] == c && c !in s[r.value + 1..]
  {
    if |s| == 0 then None
    else if s[|s| - 1] == c then Some(|s| - 1)
    else
      var init := s[..|s| - 1];
      assert s == init + [s[|s| - 1]];
      match LastIndexOf(init, c)
      case None => None
      case Some(i) =>
        assert s[i + 1..] == init[i + 1..] + [s[|s| - 1]];
        Some(i)
  }

  /**
   * The address check with the regex's end anchor read as end of input.
   * No class after the '@' admits '@', so the '@' is the first one; the
   * top-level domain admits no '.', so its dot is the last one.
   */
  predicate IsValidEmail(s: string)
    // the shortest address is "a@b.cd": it starts in the local class and
    // ends with two letters of the top-level domain
    ensures IsValidEmail(s) ==>
      && 6 <= |s| && IsLocalChar(s[0])
      && IsAsciiLetter(s[|s| - 2]) && IsAsciiLetter(s[|s| - 1])
  {
    match FirstIndexOf(s, '@')
    case None => false
    case Some(at) =>
      var host := s[at + 1..];
      match LastIndexOf(host, '.')
      case None => false
      case Some(dot) =>
        var ok :=
          && 0 < at && All(s[..at], IsLocalChar)
          && 0 < dot && All(host[..dot], IsDomainChar)
          && dot + 2 < |host| && All(host[dot + 1..], IsAsciiLetter);
        assert ok ==> 6 <= |s| && IsLocalChar(s[0]) && IsAsciiLetter(s[|s| - 2]) && IsAsciiLetter(s[|s| - 1]) by {
          if ok {
            EdgeChars(s, at, dot);
          }
        }
        ok
  }

  /** An address split at `at` and at the host's `dot` starts and ends as the pattern says. */
  lemma EdgeChars(s: string, at: nat, dot: nat)
    requires 0 < at < |s| && All(s[..at], IsLocalChar)
    requires dot + 2 < |s[at + 1..]| && All(s[at + 1..][dot + 1..], IsAsciiLetter)
    ensures IsLocalChar(s[0]) && IsAsciiLetter(s[|s| - 2]) && IsAsciiLetter(s[|s| - 1])
  {
    var tld := s[at + 1..][dot + 1..];
    assert s[..at][0] == s[0];
    assert tld[|tld| - 2] == s[|s| - 2] && tld[|tld| - 1] == s[|s| - 1];
  }

  /** A character outside the class cannot occur in a string drawn from it. */
  lemma AllExcludes(s: string, p: char -> bool, c: char)
    requires All(s, p) && !p(c)
    ensures c !in s
  {
  }

  lemma FirstIndexOfIs(s: string, c: char, i: nat)
    requires i < |s| && s[i] == c && c !in s[..i]
    ensures FirstIndexOf(s, c) == Some(i)
  {
  }

  lemma LastIndexOfIs(s: string, c: char, i: nat)
    requires i < |s| && s[i] == c && c !in s[i + 1..]
    ensures LastIndexOf(s, c) == Some(i)
  {
  }

  lemma ValidEmailMatchesPattern(s: string)
    requires IsValidEmail(s)
    ensures MatchesEmailPattern(s)
  {
    match FirstIndexOf(s, '@')
    case None => assert false;
    case Some(at) =>
      match LastIndexOf(s[at + 1..], '.')
      case None => assert false;
      case Some(dot) => HostSplit(s, at, dot);
  }

  /** The host's split at its dot, read back as a split of the whole address. */
  lemma HostSplit(s: string, at: nat, dot: nat)
    requires at < |s| && s[at] == '@' && 0 < at && All(s[..at], IsLocalChar)
    requires 0 < dot && dot + 2 < |s[at + 1..]| && s[at + 1..][dot] == '.'
    requires All(s[at + 1..][..dot], IsDomainChar) && All(s[at + 1..][dot + 1..], IsAsciiLetter)
    ensures MatchesEmailPattern(s)
  {
    var d := at + 1 + dot;
    assert s[at + 1..d] == s[at + 1..][..dot];
    assert s[d + 1..] == s[at + 1..][dot + 1..];
    assert SplitsAsEmail(s, at, d);
  }

  lemma PatternIsValidEmail(s: string, at: nat, d: nat)
    requires SplitsAsEmail(s, at, d)
    ensures IsValidEmail(s)
  {
    var host := s[at + 1..];
    var dot := d - at - 1;
    assert FirstIndexOf(s, '@') == Some(at) by {
      AllExcludes(s[..at], IsLocalChar, '@');
      FirstIndexOfIs(s, '@', at);
    }
    assert LastIndexOf(host, '.') == Some(dot) by {
      assert host[dot + 1..] == s[d + 1..];
      AllExcludes(s[d + 1..], IsAsciiLetter, '.');
      LastIndexOfIs(host, '.', dot);
    }
    assert All(host[..dot], IsDomainChar) by {
      assert host[..dot] == s[at + 1..d];
    }
    assert All(host[dot + 1..], IsAsciiLetter) by {
      assert host[dot + 1..] == s[d + 1..];
    }
    assert 0 < dot && dot + 2 < |host|;
    ValidAt(s, at, dot);
  }

  /** The check's two searches land at `at` and `dot`, and the three parts are drawn from their classes. */
  lemma ValidAt(s: string, at: nat, dot: nat)
    requires FirstIndexOf(s, '@') == Some(at) && LastIndexOf(s[at + 1..], '.') == Some(dot)
    requires 0 < at && All(s[..at], IsLocalChar)
    requires 0 < dot && All(s[at + 1..][..dot], IsDomainChar)
    requires dot + 2 < |s[at + 1..]| && All(s[at + 1..][dot + 1..], IsAsciiLetter)
    ensures IsValidEmail(s)
  {
  }

  /** The split-based check accepts exactly the strings the pattern denotes. */
  lemma IsValidEmailIffPattern(s: string)
    ensures IsValidEmail(s) <==> MatchesEmailPattern(s)
  {
    if IsValidEmail(s) {
      ValidEmailMatchesPattern(s);
    }
    if MatchesEmailPattern(s) {
      var at, d :| SplitsAsEmail(s, at, d);
      PatternIsValidEmail(s, at, d);
    }
  }

  /**
   * The line terminators Java's `$` may stand before: \n, \r, U+0085,
   * U+2028 and U+2029 (and the pair \r\n).
   */
  predicate IsLineTerminator(c: char) {
    c == '\n' || c == '\r' || c == '\U{0085}' || c == '\U{2028}' || c == '\U{2029}'
  }

  /**
   * What `rlike` accepts as written: Spark hands the pattern to
   * java.util.regex, whose `$` without MULTILINE matches at the end of input
   * or just before one final line terminator.
   */
  predicate RlikeEmailPattern(s: string)
    // beyond the check's own language it accepts only strings that end
    // with a line terminator
    ensures RlikeEmailPattern(s) && !IsValidEmail(s) ==>
      0 < |s| && IsLineTerminator(s[|s| - 1])
  {
    || IsValidEmail(s)
    || (0 < |s| && IsLineTerminator(s[|s| - 1]) && IsValidEmail(s[..|s| - 1]))
    || (1 < |s| && s[|s| - 2..] == "\r\n" && IsValidEmail(s[..|s| - 2]))
  }

  /**
   * As written, `rlike` accepts every address in the pattern's language and,
   * beyond it, the same address followed by a newline.
   */
  lemma RlikeAcceptsTrailingNewline(s: string)
    requires IsValidEmail(s)
    ensures RlikeEmailPattern(s)
    ensures RlikeEmailPattern(s + "\n")
    ensures !MatchesEmailPattern(s + "\n")
  {
    var t := s + "\n";
    assert t[..|t| - 1] == s;
    NonLetterEndRejected(t);
  }

  /** The pattern ends in a letter, so a string ending in anything else is outside it. */
  lemma NonLetterEndRejected(t: string)
    requires 0 < |t| && !IsAsciiLetter(t[|t| - 1])
    ensures !MatchesEmailPattern(t)
  {
    forall at: int, dot: int
      ensures !SplitsAsEmail(t, at, dot)
    {
      if 0 <= dot && dot + 2 < |t| {
        assert t[dot + 1..][|t| - dot - 2] == t[|t| - 1];
      }
    }
  }

  /** An address without '@' is rejected. */
  lemma RejectsAddressWithoutAt()
    ensures !IsValidEmail("not-an-email")
  {
    AllExcludes("not-an-email", IsDomainChar, '@');
  }

  /** An address whose host has no dot (`user@invalid`) is rejected. */
  lemma RejectsHostWithoutDot(local: string, host: string)
    requires All(local, IsLocalChar)
    requires '.' !in host
    ensures !IsValidEmail(local + "@" + host)
  {
    var s := local + "@" + host;
    AllExcludes(local, IsLocalChar, '@');
    assert s[..|local|] == local;
    FirstIndexOfIs(s, '@', |local|);
    assert s[|local| + 1..] == host;
  }
}

=== FILE: products.dfy ===
/**
 * `clean_products`: keep rows with a positive price, clamp negative stock to
 * zero, fill an empty supplier with "Unknown", impute a missing weight with
 * its category's median, and clamp the rating into [0, 5].
 */
module ProductCleaning {
  import opened Wrappers
  import opened Seqs
  import opened Records

  /** `unit_price > 0` as a filter: a NULL price fails it. */
  predicate HasPositivePrice(p: Product) {
    p.unitPrice.Some? && p.unitPrice.value > 0.0
  }

  /** `when(stock_quantity < 0, 0).otherwise(stock_quantity)`: NULL stays NULL. */
  function ClampStock(q: Option<int>): (r: Option<int>)
    ensures r.Some? <==> q.Some?
    ensures r.Some? ==> r.value >= 0
    ensures q.Some? && q.value >= 0 ==> r == q
    ensures q.Some? && q.value < 0 ==> r == Some(0)
  {
    if q.Some? && q.value < 0 then Some(0) else q
  }

  const MaxRating: real := 5.0

  /**
   * `when(rating > 5.0, 5.0).when(rating < 0.0, 0.0).otherwise(rating)`:
   * NULL stays NULL.
   */
  function ClampRating(x: Option<real>): (r: Option<real>)
    ensures r.Some? <==> x.Some?
    ensures r.Some? ==> 0.0 <= r.value <= MaxRating
    ensures x.Some? && 0.0 <= x.value <= MaxRating ==> r == x
    ensures x.Some? && x.value > MaxRating ==> r == Some(MaxRating)
    ensures x.Some? && x.value < 0.0 ==> r == Some(0.0)
  {
    if x.Some? && x.value > MaxRating then Some(MaxRating)
    else if x.Some? && x.value < 0.0 then Some(0.0)
    else x
  }

  /**
   * The left join with the per-category medians followed by
   * `when(weight_kg.isNull(), median_weight)`: the join on `category` never
   * matches a NULL category, so such a row keeps a NULL weight.  `medianOf`
   * stands for the `percentile_approx` aggregate.
   */
  function ImputeWeight(p: Product, medianOf: string -> Option<real>): (r: Option<real>)
    ensures p.weightKg.Some? ==> r == p.weightKg
    ensures p.weightKg.None? && p.category.Some? ==> r == medianOf(p.category.value)
    ensures p.category.None? ==> r == p.weightKg
  {
    if p.weightKg.None? && p.category.Some? then medianOf(p.category.value) else p.weightKg
  }

  /** The column repairs of one surviving row, in the order the source applies them. */
  function RepairProduct(p: Product, medianOf: string -> Option<real>): (r: Product)
    ensures r.productId == p.productId && r.productName == p.productName && r.category == p.category
    ensures r.unitPrice == p.unitPrice
    ensures r.stockQuantity == ClampStock(p.stockQuantity)
    ensures r.supplier == FillUnknown(p.supplier)
    ensures r.weightKg == ImputeWeight(p, medianOf)
    ensures r.rating == ClampRating(p.rating)
  {
    var stocked := p.(stockQuantity := ClampStock(p.stockQuantity));
    var supplied := stocked.(supplier := FillUnknown(stocked.supplier));
    var weighed := supplied.(weightKg := ImputeWeight(supplied, medianOf));
    weighed.(rating := ClampRating(weighed.rating))
  }

  /** `filter(unit_price > 0)` */
  function KeepPositivePrice(rows: seq<Product>): (r: seq<Product>)
    ensures |r| <= |rows|
    ensures forall p :: p in r <==> p in rows && HasPositivePrice(p)
    ensures forall p :: multiset(r)[p] == if HasPositivePrice(p) then multiset(rows)[p] else 0
  {
    var r := Filter(rows, HasPositivePrice);
    assert forall p :: multiset(r)[p] == if HasPositivePrice(p) then multiset(rows)[p] else 0 by {
      forall p ensures multiset(r)[p] == if HasPositivePrice(p) then multiset(rows)[p] else 0 {
        FilterCount(rows, HasPositivePrice, p);
      }
    }
    r
  }

  /**
   * The whole of `clean_products`: row i is the i-th positively priced input
   * row with key, name, category and price kept, stock and rating clamped,
   * the supplier filled and the weight imputed.
   */
  function CleanProducts(rows: seq<Product>, medianOf: string -> Option<real>): (r: seq<Product>)
    ensures |r| == |KeepPositivePrice(rows)| <= |rows|
    ensures forall i :: 0 <= i < |r| ==>
      var p := KeepPositivePrice(rows)[i];
      && r[i].productId == p.productId && r[i].productName == p.productName
      && r[i].category == p.category && r[i].unitPrice == p.unitPrice
      && r[i].stockQuantity == ClampStock(p.stockQuantity)
      && r[i].supplier == FillUnknown(p.supplier)
      && r[i].weightKg == ImputeWeight(p, medianOf)
      && r[i].rating == ClampRating(p.rating)
  {
    Map(KeepPositivePrice(rows), p => RepairProduct(p, medianOf))
  }

  /** The invariants every cleaned product row satisfies. */
  predicate IsCleanProduct(p: Product) {
    && HasPositivePrice(p)
    && (p.stockQuantity.Some? ==> p.stockQuantity.value >= 0)
    && (p.rating.Some? ==> 0.0 <= p.rating.value <= MaxRating)
    && p.supplier.Some?
  }

  /**
   * Only the price filter removes rows: the cleaned table has one row per
   * positively priced input row, in order. Each output row keeps its source
   * row's key, name, category and price, carries the clamped stock and
   * rating (an in-range value unchanged), the filled supplier and the imputed
   * weight, and satisfies the cleaned-product invariants.
   */
  lemma CleanProductsShape(rows: seq<Product>, medianOf: string -> Option<real>)
    ensures |CleanProducts(rows, medianOf)| == |KeepPositivePrice(rows)|
    ensures forall i :: 0 <= i < |CleanProducts(rows, medianOf)| ==>
      var p := KeepPositivePrice(rows)[i];
      var r := CleanProducts(rows, medianOf)[i];
      && p in rows && HasPositivePrice(p)
      && r.productId == p.productId && r.unitPrice == p.unitPrice
      && r.productName == p.productName && r.category == p.category
      && r.stockQuantity == ClampStock(p.stockQuantity)
      && r.supplier == FillUnknown(p.supplier)
      && r.weightKg == ImputeWeight(p, medianOf)
      && r.rating == ClampRating(p.rating)
      && (p.stockQuantity.Some? && p.stockQuantity.value >= 0 ==> r.stockQuantity == p.stockQuantity)
      && (p.rating.Some? && 0.0 <= p.rating.value <= MaxRating ==> r.rating == p.rating)
      && IsCleanProduct(r)
  {
    var kept := KeepPositivePrice(rows);
    forall i | 0 <= i < |kept| ensures kept[i] in rows && HasPositivePrice(kept[i]) {
      assert kept[i] in kept;
    }
  }

  /** Every row `clean_products` outputs satisfies the cleaned-product invariants. */
  lemma CleanProductIsClean(rows: seq<Product>, medianOf: string -> Option<real>, r: Product)
    requires r in CleanProducts(rows, medianOf)
    ensures IsCleanProduct(r)
  {
    CleanProductsShape(rows, medianOf);
  }

  /** Values already in range pass through every repair unchanged. */
  lemma RepairKeepsInRange(p: Product, medianOf: string -> Option<real>)
    requires p.stockQuantity.Some? ==> p.stockQuantity.value >= 0
    requires p.rating.Some? ==> 0.0 <= p.rating.value <= MaxRating
    ensures RepairProduct(p, medianOf).stockQuantity == p.stockQuantity
    ensures RepairProduct(p, medianOf).rating == p.rating
  {
  }

  /** Repairing a repaired row changes nothing: every clamp and fill is idempotent. */
  lemma RepairIdempotent(p: Product, medianOf: string -> Option<real>)
    ensures RepairProduct(RepairProduct(p, medianOf), medianOf) == RepairProduct(p, medianOf)
  {
  }

  /** Cleaning cleaned products changes nothing (the medians being the same). */
  lemma CleanProductsIdempotent(rows: seq<Product>, medianOf: string -> Option<real>)
    ensures CleanProducts(CleanProducts(rows, medianOf), medianOf) == CleanProducts(rows, medianOf)
  {
    var r := CleanProducts(rows, medianOf);
    CleanProductsShape(rows, medianOf);
    FilterKeepsAll(r, HasPositivePrice);
    assert KeepPositivePrice(r) == r;
    forall i | 0 <= i < |r| ensures RepairProduct(r[i], medianOf) == r[i] {
      RepairIdempotent(KeepPositivePrice(rows)[i], medianOf);
    }
  }

  /**
   * Two rows sharing a product_id, the second with a non-positive price:
   * only the first, repaired, comes through.  The price filter is what
   * removes the second; `clean_products` does not deduplicate ids.
   */
  lemma NonPositiveDuplicateDropped(first: Product, second: Product, medianOf: string -> Option<real>)
    requires HasPositivePrice(first) && !HasPositivePrice(second)
    ensures CleanProducts([first, second], medianOf) == [RepairProduct(first, medianOf)]
  {
    var rows := [first, second];
    assert rows[1..] == [second];
    assert [second][1..] == [];
    assert KeepPositivePrice(rows) == [first];
  }
}

=== FILE: records.dfy ===
/**
 * The rows of the three raw tables and of the star schema.  Every column is
 * nullable, as a CSV read with an inferred schema leaves it.  Dates are day
 * numbers, already parsed; prices, weights, ratings and amounts are exact
 * reals standing for Spark doubles.
 */
module Records {
  import opened Wrappers

  datatype Customer = Customer(
    customerId: Option<int>,
    name: Option<string>,
    email: Option<string>,
    country: Option<string>,
    registrationDate: Option<int>,
    segment: Option<string>,
    phone: Option<string>,
    city: Option<string>)

  datatype Product = Product(
    productId: Option<int>,
    productName: Option<string>,
    category: Option<string>,
    unitPrice: Option<real>,
    supplier: Option<string>,
    stockQuantity: Option<int>,
    weightKg: Option<real>,
    rating: Option<real>)

  datatype Sale = Sale(
    saleId: Option<int>,
    customerId: Option<int>,
    productId: Option<int>,
    date: Option<int>,
    quantity: Option<int>,
    discountPercent: Option<int>,
    paymentMethod: Option<string>,
    status: Option<string>)

  /** A row of `dim_customer`: a customer without its phone. */
  datatype DimCustomer = DimCustomer(
    customerId: Option<int>,
    name: Option<string>,
    email: Option<string>,
    country: Option<string>,
    registrationDate: Option<int>,
    segment: Option<string>,
    city: Option<string>)

  /** A row of `dim_product`: a product without stock and weight. */
  datatype DimProduct = DimProduct(
    productId: Option<int>,
    productName: Option<string>,
    category: Option<string>,
    unitPrice: Option<real>,
    supplier: Option<string>,
    rating: Option<real>)

  /** A row of `fact_sales`: a sale priced from its product, with its derived amounts. */
  datatype FactSale = FactSale(
    saleId: Option<int>,
    customerId: Option<int>,
    productId: Option<int>,
    saleDate: Option<int>,
    quantity: Option<int>,
    unitPrice: Option<real>,
    discountPercent: Option<int>,
    amountBeforeDiscount: Option<real>,
    discountAmount: Option<real>,
    totalAmount: Option<real>,
    paymentMethod: Option<string>,
    status: Option<string>)

  /** The text `fillna` writes into an empty contact or supplier column. */
  const Unknown: string := "Unknown"

  /** `fillna({col: "Unknown"})` on one cell. */
  function FillUnknown(v: Option<string>): (r: Option<string>)
    ensures r.Some?
    ensures v.Some? ==> r == v
    ensures v.None? ==> r == Some(Unknown)
  {
    Some(v.GetOr(Unknown))
  }
}

=== FILE: sales.dfy ===
/**
 * `clean_sales`: drop undated and future-dated sales, keep the sales whose
 * customer and product are among the cleaned ones (inner joins), drop
 * non-positive quantities, clamp the discount into [0, 100], and keep one
 * row per sale_id, the earliest-dated.
 */
module SaleCleaning {
  import opened Wrappers
  import opened Seqs
  import opened Records

  function SaleIdOf(s: Sale): Option<int> { s.saleId }
  function SaleDateOf(s: Sale): Option<int> { s.date }
  function SaleCustomerOf(s: Sale): Option<int> { s.customerId }
  function SaleProductOf(s: Sale): Option<int> { s.productId }

  /** The `customer_id` column of the cleaned customers, the right side of the first join. */
  function CustomerKeys(customers: seq<Customer>): (r: seq<Option<int>>)
    ensures |r| == |customers|
    ensures forall i :: 0 <= i < |r| ==> r[i] == customers[i].customerId
    ensures forall k :: k in r <==> exists c :: c in customers && c.customerId == k
  {
    var r := Map(customers, (c: Customer) => c.customerId);
    assert forall k :: k in r ==> exists c :: c in customers && c.customerId == k by {
      forall k | k in r ensures exists c :: c in customers && c.customerId == k {
        var i :| 0 <= i < |r| && r[i] == k;
        assert customers[i] in customers;
      }
    }
    assert forall c :: c in customers ==> c.customerId in r by {
      forall c | c in customers ensures c.customerId in r {
        var i :| 0 <= i < |customers| && customers[i] == c;
        assert r[i] == c.customerId;
      }
    }
    r
  }

  /** The `product_id` column of the cleaned products, the right side of the second join. */
  function ProductKeys(products: seq<Product>): (r: seq<Option<int>>)
    ensures |r| == |products|
    ensures forall i :: 0 <= i < |r| ==> r[i] == products[i].productId
    ensures forall k :: k in r <==> exists p :: p in products && p.productId == k
  {
    var r := Map(products, (p: Product) => p.productId);
    assert forall k :: k in r ==> exists p :: p in products && p.productId == k by {
      forall k | k in r ensures exists p :: p in products && p.productId == k {
        var i :| 0 <= i < |r| && r[i] == k;
        assert products[i] in products;
      }
    }
    assert forall p :: p in products ==> p.productId in r by {
      forall p | p in products ensures p.productId in r {
        var i :| 0 <= i < |products| && products[i] == p;
        assert r[i] == p.productId;
      }
    }
    r
  }

  /** `date.isNotNull()` as a filter. */
  predicate HasSaleDate(s: Sale) {
    s.date.Some?
  }

  /** `date <= current_date()` as a filter: a NULL date fails it. */
  predicate IsDatedBy(s: Sale, today: int) {
    s.date.Some? && s.date.value <= today
  }

  function DatedBy(today: int): Sale -> bool {
    (s: Sale) => IsDatedBy(s, today)
  }

  /** `quantity > 0` as a filter: a NULL quantity fails it. */
  predicate HasPositiveQuantity(s: Sale) {
    s.quantity.Some? && s.quantity.value > 0
  }

  const MaxDiscount: int := 100

  /**
   * `when(discount_percent > 100, 100).when(discount_percent < 0, 0)
   *  .otherwise(discount_percent)`: NULL stays NULL.
   */
  function ClampDiscount(d: Option<int>): (r: Option<int>)
    ensures r.Some? <==> d.Some?
    ensures r.Some? ==> 0 <= r.value <= MaxDiscount
    ensures d.Some? && 0 <= d.value <= MaxDiscount ==> r == d
    ensures d.Some? && d.value > MaxDiscount ==> r == Some(MaxDiscount)
    ensures d.Some? && d.value < 0 ==> r == Some(0)
  {
    if d.Some? && d.value > MaxDiscount then Some(MaxDiscount)
    else if d.Some? && d.value < 0 then Some(0)
    else d
  }

  function WithClampedDiscount(s: Sale): Sale {
    s.(discountPercent := ClampDiscount(s.discountPercent))
  }

  /** Every row-level check a sale must pass before deduplication. */
  predicate PassesSaleChecks(s: Sale, customerKeys: seq<Option<int>>, productKeys: seq<Option<int>>, today: int) {
    && IsDatedBy(s, today)
    && s.customerId.Some? && s.customerId in customerKeys
    && s.productId.Some? && s.productId in productKeys
    && HasPositiveQuantity(s)
  }

  /** The filters and joins of `clean_sales`: the date filters, the two inner joins and the quantity filter. */
  function PassingSales(sales: seq<Sale>, customerKeys: seq<Option<int>>, productKeys: seq<Option<int>>, today: int): (r: seq<Sale>)
    ensures forall s :: s in r <==> s in sales && PassesSaleChecks(s, customerKeys, productKeys, today)
  {
    var dated := Filter(sales, HasSaleDate);
    var current := Filter(dated, DatedBy(today));
    var withCustomer := InnerJoinKeys(current, SaleCustomerOf, customerKeys);
    var withProduct := InnerJoinKeys(withCustomer, SaleProductOf, productKeys);
    Filter(withProduct, HasPositiveQuantity)
  }

  /**
   * The filters, joins and discount clamp of `clean_sales`: every row reaching the deduplication
   * passes every check and already has its discount in [0, 100].
   */
  function CheckedSales(sales: seq<Sale>, customerKeys: seq<Option<int>>, productKeys: seq<Option<int>>, today: int): (r: seq<Sale>)
    ensures forall i :: 0 <= i < |r| ==>
      PassesSaleChecks(r[i], customerKeys, productKeys, today) && WithClampedDiscount(r[i]) == r[i]
  {
    var passing := PassingSales(sales, customerKeys, productKeys, today);
    var r := Map(passing, WithClampedDiscount);
    assert forall i :: 0 <= i < |r| ==>
      PassesSaleChecks(r[i], customerKeys, productKeys, today) && WithClampedDiscount(r[i]) == r[i] by {
      forall i | 0 <= i < |r|
        ensures PassesSaleChecks(r[i], customerKeys, productKeys, today) && WithClampedDiscount(r[i]) == r[i]
      {
        assert passing[i] in passing;
        ClampKeepsChecks(passing[i], customerKeys, productKeys, today);
      }
    }
    r
  }

  /** Clamping the discount leaves every check as it was and is idempotent. */
  lemma ClampKeepsChecks(s: Sale, ck: seq<Option<int>>, pk: seq<Option<int>>, today: int)
    ensures PassesSaleChecks(WithClampedDiscount(s), ck, pk, today) == PassesSaleChecks(s, ck, pk, today)
    ensures WithClampedDiscount(WithClampedDiscount(s)) == WithClampedDiscount(s)
  {
  }

  /** Each checked row is an input sale that passed every check, with its discount clamped. */
  lemma CheckedSaleSource(sales: seq<Sale>, ck: seq<Option<int>>, pk: seq<Option<int>>, today: int, x: Sale)
    returns (s: Sale)
    requires x in CheckedSales(sales, ck, pk, today)
    ensures s in sales && PassesSaleChecks(s, ck, pk, today) && x == WithClampedDiscount(s)
  {
    var passing := PassingSales(sales, ck, pk, today);
    MapMembership(passing, WithClampedDiscount, x);
    var i :| 0 <= i < |passing| && x == WithClampedDiscount(passing[i]);
    s := passing[i];
    assert s in passing;
  }

  /** Every input sale that passes every check reaches the deduplication, discount clamped. */
  lemma CheckedSaleKept(sales: seq<Sale>, ck: seq<Option<int>>, pk: seq<Option<int>>, today: int, s: Sale)
    requires s in sales && PassesSaleChecks(s, ck, pk, today)
    ensures WithClampedDiscount(s) in CheckedSales(sales, ck, pk, today)
  {
    var passing := PassingSales(sales, ck, pk, today);
    assert s in passing;
    MapMembership(passing, WithClampedDiscount, WithClampedDiscount(s));
  }

  /** The checks work row by row: checking a concatenation checks each part. */
  lemma CheckedSalesConcat(a: seq<Sale>, b: seq<Sale>, ck: seq<Option<int>>, pk: seq<Option<int>>, today: int)
    ensures CheckedSales(a + b, ck, pk, today) == CheckedSales(a, ck, pk, today) + CheckedSales(b, ck, pk, today)
  {
    FilterConcat(a, b, HasSaleDate);
    var da, db := Filter(a, HasSaleDate), Filter(b, HasSaleDate);
    FilterConcat(da, db, DatedBy(today));
    var ca, cb := Filter(da, DatedBy(today)), Filter(db, DatedBy(today));
    InnerJoinConcat(ca, cb, SaleCustomerOf, ck);
    var wa, wb := InnerJoinKeys(ca, SaleCustomerOf, ck), InnerJoinKeys(cb, SaleCustomerOf, ck);
    InnerJoinConcat(wa, wb, SaleProductOf, pk);
    var xa, xb := InnerJoinKeys(wa, SaleProductOf, pk), InnerJoinKeys(wb, SaleProductOf, pk);
    FilterConcat(xa, xb, HasPositiveQuantity);
    assert PassingSales(a + b, ck, pk, today) == PassingSales(a, ck, pk, today) + PassingSales(b, ck, pk, today);
    MapConcat(PassingSales(a, ck, pk, today), PassingSales(b, ck, pk, today), WithClampedDiscount);
  }

  /** A sale that passes every check comes through the checks as one or more copies of itself, clamped. */
  lemma CheckedSaleBlock(s: Sale, ck: seq<Option<int>>, pk: seq<Option<int>>, today: int)
    requires PassesSaleChecks(s, ck, pk, today)
    ensures IsBlockOf(CheckedSales([s], ck, pk, today), WithClampedDiscount(s))
  {
    FilterBlock([s], s, HasSaleDate);
    FilterBlock([s], s, DatedBy(today));
    InnerJoinBlock([s], s, SaleCustomerOf, ck);
    var w := InnerJoinKeys([s], SaleCustomerOf, ck);
    InnerJoinBlock(w, s, SaleProductOf, pk);
    var x := InnerJoinKeys(w, SaleProductOf, pk);
    FilterBlock(x, s, HasPositiveQuantity);
    MapBlock(x, s, WithClampedDiscount);
  }

  /**
   * `row_number() over (partitionBy("sale_id").orderBy("date")) == 1`: one
   * row per sale_id (all NULL ids forming one partition), the earliest.
   */
  function DedupeBySaleId(rows: seq<Sale>): (r: seq<Sale>)
    ensures |r| <= |rows|
    ensures multiset(r) <= multiset(rows)
    ensures forall a, b :: 0 <= a < b < |r| ==> r[a].saleId != r[b].saleId
  {
    KeepFirstPerPartition(rows, SaleIdOf, SaleDateOf)
  }

  /** The whole of `clean_sales`, against the cleaned customers and products. */
  function CleanSales(sales: seq<Sale>, customers: seq<Customer>, products: seq<Product>, today: int): (r: seq<Sale>)
    ensures forall a, b :: 0 <= a < b < |r| ==> r[a].saleId != r[b].saleId
  {
    DedupeBySaleId(CheckedSales(sales, CustomerKeys(customers), ProductKeys(products), today))
  }

  /** A cleaned sale traced back to the input sale it comes from. */
  lemma CleanSaleSource(sales: seq<Sale>, customers: seq<Customer>, products: seq<Product>, today: int, r: Sale)
    returns (s: Sale)
    requires r in CleanSales(sales, customers, products, today)
    ensures r in CheckedSales(sales, CustomerKeys(customers), ProductKeys(products), today)
    ensures s in sales && PassesSaleChecks(s, CustomerKeys(customers), ProductKeys(products), today)
    ensures r == WithClampedDiscount(s)
  {
    var checked := CheckedSales(sales, CustomerKeys(customers), ProductKeys(products), today);
    assert r in multiset(DedupeBySaleId(checked));
    s := CheckedSaleSource(sales, CustomerKeys(customers), ProductKeys(products), today, r);
  }

  /**
   * Every cleaned sale is an input sale, discount clamped, that is dated no
   * later than the processing date, whose customer is a cleaned customer and
   * whose product is a cleaned product, with a positive quantity and a
   * discount that is NULL or within [0, 100].
   */
  lemma CleanSalesSound(sales: seq<Sale>, customers: seq<Customer>, products: seq<Product>, today: int, r: Sale)
    requires r in CleanSales(sales, customers, products, today)
    ensures exists s :: s in sales && r == WithClampedDiscount(s)
    ensures r.date.Some? && r.date.value <= today
    ensures r.customerId.Some? && exists c :: c in customers && c.customerId == r.customerId
    ensures r.productId.Some? && exists p :: p in products && p.productId == r.productId
    ensures r.quantity.Some? && r.quantity.value > 0
    ensures r.discountPercent.Some? ==> 0 <= r.discountPercent.value <= MaxDiscount
  {
    var s := CleanSaleSource(sales, customers, products, today, r);
  }

  /**
   * No sale_id that some fully valid input sale carries is lost, even when
   * another row with that id failed a check.
   */
  lemma CleanSalesComplete(sales: seq<Sale>, customers: seq<Customer>, products: seq<Product>, today: int, s: Sale)
    requires s in sales && PassesSaleChecks(s, CustomerKeys(customers), ProductKeys(products), today)
    ensures exists r :: r in CleanSales(sales, customers, products, today) && r.saleId == s.saleId
  {
    var checked := CheckedSales(sales, CustomerKeys(customers), ProductKeys(products), today);
    CheckedSaleKept(sales, CustomerKeys(customers), ProductKeys(products), today, s);
    var i :| 0 <= i < |checked| && checked[i] == WithClampedDiscount(s);
    KeepFirstCoversPartitions(checked, SaleIdOf, SaleDateOf, i);
  }

  /**
   * The row kept for a sale_id is dated no later than any input row with
   * that id that passed every check.
   */
  lemma CleanSalesEarliest(sales: seq<Sale>, customers: seq<Customer>, products: seq<Product>, today: int, r: Sale, s: Sale)
    requires r in CleanSales(sales, customers, products, today)
    requires s in sales && PassesSaleChecks(s, CustomerKeys(customers), ProductKeys(products), today)
    requires s.saleId == r.saleId
    ensures r.date.Some? && s.date.Some? && r.date.value <= s.date.value
  {
    var checked := CheckedSales(sales, CustomerKeys(customers), ProductKeys(products), today);
    var src := CleanSaleSource(sales, customers, products, today, r);
    CheckedSaleKept(sales, CustomerKeys(customers), ProductKeys(products), today, s);
    var j :| 0 <= j < |checked| && checked[j] == WithClampedDiscount(s);
    KeepFirstIsMinimal(checked, SaleIdOf, SaleDateOf, r, j);
  }

  /** A cleaned sale passes every check again and its discount is already clamped. */
  lemma CleanSaleIsFixed(sales: seq<Sale>, customers: seq<Customer>, products: seq<Product>, today: int, r: Sale)
    requires r in CleanSales(sales, customers, products, today)
    ensures PassesSaleChecks(r, CustomerKeys(customers), ProductKeys(products), today)
    ensures WithClampedDiscount(r) == r
  {
    var s := CleanSaleSource(sales, customers, products, today, r);
  }

  /** `PassesSaleChecks` as a filter. */
  function PassesChecksOf(customerKeys: seq<Option<int>>, productKeys: seq<Option<int>>, today: int): Sale -> bool {
    (s: Sale) => PassesSaleChecks(s, customerKeys, productKeys, today)
  }

  /**
   * Against unique customer and product keys the two inner joins duplicate
   * nothing: the filters and joins together are one filter by every check,
   * so each passing sale comes through exactly as often as it was input.
   */
  lemma PassingSalesUniqueIsFilter(sales: seq<Sale>, ck: seq<Option<int>>, pk: seq<Option<int>>, today: int)
    requires UniqueKeys(ck) && UniqueKeys(pk)
    ensures PassingSales(sales, ck, pk, today) == Filter(sales, PassesChecksOf(ck, pk, today))
  {
    var dated := (s: Sale) => IsDatedBy(s, today);
    var withCustomer := (s: Sale) => IsDatedBy(s, today) && s.customerId.Some? && s.customerId in ck;
    var withProduct := (s: Sale) =>
      IsDatedBy(s, today) && s.customerId.Some? && s.customerId in ck && s.productId.Some? && s.productId in pk;
    var c := (s: Sale) => SaleCustomerOf(s).Some? && SaleCustomerOf(s) in ck;
    var p := (s: Sale) => SaleProductOf(s).Some? && SaleProductOf(s) in pk;
    FilterFilter(sales, HasSaleDate, DatedBy(today), dated);
    var current := Filter(sales, dated);
    InnerJoinUniqueIsFilter(current, SaleCustomerOf, ck, c);
    FilterFilter(sales, dated, c, withCustomer);
    InnerJoinUniqueIsFilter(Filter(sales, withCustomer), SaleProductOf, pk, p);
    FilterFilter(sales, withCustomer, p, withProduct);
    FilterFilter(sales, withProduct, HasPositiveQuantity, PassesChecksOf(ck, pk, today));
  }

  /** Rows that already pass every check, discount clamped, come through the checks unchanged. */
  lemma CheckedSalesOfChecked(r: seq<Sale>, ck: seq<Option<int>>, pk: seq<Option<int>>, today: int)
    requires UniqueKeys(ck) && UniqueKeys(pk)
    requires forall i :: 0 <= i < |r| ==> PassesSaleChecks(r[i], ck, pk, today) && WithClampedDiscount(r[i]) == r[i]
    ensures CheckedSales(r, ck, pk, today) == r
  {
    PassingSalesUniqueIsFilter(r, ck, pk, today);
    FilterKeepsAll(r, PassesChecksOf(ck, pk, today));
    assert Map(r, WithClampedDiscount) == r;
  }

  /**
   * Rows that pass every check, discount clamped, with distinct sale_ids
   * deduplicate back to themselves after the checks, however many copies of
   * a row the joins make.
   */
  lemma {:induction false} DedupeCheckedOfClean(r: seq<Sale>, ck: seq<Option<int>>, pk: seq<Option<int>>, today: int)
    requires forall i :: 0 <= i < |r| ==> PassesSaleChecks(r[i], ck, pk, today) && WithClampedDiscount(r[i]) == r[i]
    requires forall a, b :: 0 <= a < b < |r| ==> r[a].saleId != r[b].saleId
    ensures DedupeBySaleId(CheckedSales(r, ck, pk, today)) == r
  {
    if |r| == 0 {
      assert PassingSales(r, ck, pk, today) == [];
    } else {
      var rest := r[1..];
      assert r == [r[0]] + rest;
      DedupeCheckedOfClean(rest, ck, pk, today);
      var head := CheckedSales([r[0]], ck, pk, today);
      var tail := CheckedSales(rest, ck, pk, today);
      assert CheckedSales(r, ck, pk, today) == head + tail by {
        CheckedSalesConcat([r[0]], rest, ck, pk, today);
      }
      assert IsBlockOf(head, r[0]) by {
        CheckedSaleBlock(r[0], ck, pk, today);
      }
      HeadSaleApart(r, ck, pk, today, head);
      KeepFirstOfBlockThen(head, tail, r[0], rest, SaleIdOf, SaleDateOf);
    }
  }

  /** The copies of the first row share their sale_id with no checked row of the rest. */
  lemma HeadSaleApart(r: seq<Sale>, ck: seq<Option<int>>, pk: seq<Option<int>>, today: int, head: seq<Sale>)
    requires |r| > 0 && IsBlockOf(head, r[0])
    requires forall a, b :: 0 <= a < b < |r| ==> r[a].saleId != r[b].saleId
    ensures forall x, y :: x in head && y in CheckedSales(r[1..], ck, pk, today) ==> SaleIdOf(x) != SaleIdOf(y)
  {
    var rest := r[1..];
    forall j | 0 <= j < |rest| ensures rest[j].saleId != r[0].saleId {
      assert rest[j] == r[j + 1];
    }
    CheckedSalesAvoidId(rest, ck, pk, today, r[0].saleId);
    forall x | x in head ensures x == r[0] {
      var i :| 0 <= i < |head| && head[i] == x;
    }
  }

  /** An id no input row carries is carried by no checked row. */
  lemma CheckedSalesAvoidId(rest: seq<Sale>, ck: seq<Option<int>>, pk: seq<Option<int>>, today: int, id: Option<int>)
    requires forall j :: 0 <= j < |rest| ==> rest[j].saleId != id
    ensures forall y :: y in CheckedSales(rest, ck, pk, today) ==> y.saleId != id
  {
    forall y | y in CheckedSales(rest, ck, pk, today) ensures y.saleId != id {
      var s := CheckedSaleSource(rest, ck, pk, today, y);
      var j :| 0 <= j < |rest| && rest[j] == s;
    }
  }

  /**
   * Cleaning cleaned sales changes nothing: every row passes every check
   * again, the clamp is idempotent, and the copies a repeated dimension key
   * makes in the joins collapse again in the deduplication.
   */
  lemma CleanSalesIdempotent(sales: seq<Sale>, customers: seq<Customer>, products: seq<Product>, today: int)
    ensures CleanSales(CleanSales(sales, customers, products, today), customers, products, today)
      == CleanSales(sales, customers, products, today)
  {
    var ck := CustomerKeys(customers);
    var pk := ProductKeys(products);
    var r := CleanSales(sales, customers, products, today);
    forall i | 0 <= i < |r|
      ensures PassesSaleChecks(r[i], ck, pk, today) && WithClampedDiscount(r[i]) == r[i]
    {
      CleanSaleIsFixed(sales, customers, products, today, r[i]);
    }
    DedupeCheckedOfClean(r, ck, pk, today);
  }

  /** A sale whose customer is not among the cleaned customers never reaches the cleaned sales. */
  lemma OrphanCustomerDropped(sales: seq<Sale>, customers: seq<Customer>, products: seq<Product>, today: int, id: int)
    requires forall c :: c in customers ==> c.customerId != Some(id)
    ensures forall r :: r in CleanSales(sales, customers, products, today) ==> r.customerId != Some(id)
  {
    forall r | r in CleanSales(sales, customers, products, today) ensures r.customerId != Some(id) {
      CleanSalesSound(sales, customers, products, today, r);
    }
  }
}

=== FILE: seqs.dfy ===
/**
 * Row-level table operations shared by the three cleaners: `filter`, the
 * `row_number() over (partition by .. order by ..) == 1` deduplication, and
 * the equi-join against a column of dimension keys.  A table is a `seq` of
 * rows; Spark leaves row order unspecified, the model fixes input order.
 */
module Seqs {
  import opened Wrappers

  // ---------------------------------------------------------------------------
  // filter
  // ---------------------------------------------------------------------------

  /** The rows of `s` that satisfy `p`, in their input order. */
  function Filter<T(!new)>(s: seq<T>, p: T -> bool): (r: seq<T>)
    ensures |r| <= |s|
    ensures forall x :: x in r <==> x in s && p(x)
    ensures multiset(r) <= multiset(s)
  {
    if |s| == 0 then []
    else
      assert s == [s[0]] + s[1..];
      (if p(s[0]) then [s[0]] else []) + Filter(s[1..], p)
  }

  /** A filter keeps every copy of a passing row and no copy of a failing one. */
  lemma {:induction false} FilterCount<T(!new)>(s: seq<T>, p: T -> bool, x: T)
    ensures multiset(Filter(s, p))[x] == if p(x) then multiset(s)[x] else 0
  {
    if |s| > 0 {
      var h := if p(s[0]) then [s[0]] else [];
      FilterCount(s[1..], p, x);
      FilterUnfold(s, p);
      assert multiset(Filter(s, p)) == multiset(h) + multiset(Filter(s[1..], p));
      assert s == [s[0]] + s[1..];
      assert multiset(s) == multiset{s[0]} + multiset(s[1..]);
    }
  }

  /** A filter that every row passes removes nothing. */
  lemma {:induction false} FilterKeepsAll<T(!new)>(s: seq<T>, p: T -> bool)
    requires forall i :: 0 <= i < |s| ==> p(s[i])
    ensures Filter(s, p) == s
  {
    if |s| > 0 {
      FilterKeepsAll(s[1..], p);
    }
  }

  /** No two rows share a non-null `key`. */
  predicate DistinctBy<T>(s: seq<T>, key: T -> Option<int>) {
    forall a, b :: 0 <= a < b < |s| && key(s[a]).Some? ==> key(s[a]) != key(s[b])
  }

  /** A key column whose non-null entries occur at most once: `DistinctBy` with each entry its own key. */
  predicate UniqueKeys(keys: seq<Option<int>>) {
    DistinctBy(keys, (k: Option<int>) => k)
  }

  /** A column of keys read off the rows is unique exactly when the rows are distinct by that key. */
  lemma ColumnUnique<T>(col: seq<Option<int>>, rows: seq<T>, key: T -> Option<int>)
    requires |col| == |rows| && forall i :: 0 <= i < |rows| ==> col[i] == key(rows[i])
    ensures UniqueKeys(col) <==> DistinctBy(rows, key)
  {
  }

  /** A key that no two rows share is still unshared after any filter. */
  lemma {:induction false} FilterKeepsDistinct<T(!new)>(s: seq<T>, p: T -> bool, key: T -> Option<int>)
    requires DistinctBy(s, key)
    ensures DistinctBy(Filter(s, p), key)
  {
    if |s| > 0 {
      var rest := Filter(s[1..], p);
      FilterKeepsDistinct(s[1..], p, key);
      if p(s[0]) {
        assert forall y :: y in rest ==> key(s[0]).Some? ==> key(s[0]) != key(y) by {
          forall y | y in s[1..] ensures key(s[0]).Some? ==> key(s[0]) != key(y) {
            var j :| 0 <= j < |s[1..]| && s[1..][j] == y;
            assert s[j + 1] == y;
          }
        }
        HeadApart(s[0], rest, key);
      }
    }
  }

  /** A row whose key no later row shares, put in front of rows with unshared keys. */
  lemma HeadApart<T>(x: T, rest: seq<T>, key: T -> Option<int>)
    requires DistinctBy(rest, key)
    requires forall y :: y in rest ==> key(x).Some? ==> key(x) != key(y)
    ensures DistinctBy([x] + rest, key)
  {
    var r := [x] + rest;
    forall a, b | 0 <= a < b < |r| && key(r[a]).Some? ensures key(r[a]) != key(r[b]) {
      if a == 0 {
        assert r[b] == rest[b - 1] && rest[b - 1] in rest;
      } else {
        assert r[a] == rest[a - 1] && r[b] == rest[b - 1];
      }
    }
  }

  /** `f` applied to every row (a DataFrame `withColumn` / `select`). */
  function Map<T, U>(s: seq<T>, f: T -> U): (r: seq<U>)
    ensures |r| == |s|
    ensures forall i :: 0 <= i < |s| ==> r[i] == f(s[i])
  {
    seq(|s|, i requires 0 <= i < |s| => f(s[i]))
  }

  /** Every row of a mapped table is the image of some input row, and conversely. */
  lemma MapMembership<T, U>(s: seq<T>, f: T -> U, y: U)
    ensures y in Map(s, f) <==> exists i :: 0 <= i < |s| && y == f(s[i])
  {
    var r := Map(s, f);
    if y in r {
      var k :| 0 <= k < |r| && r[k] == y;
      assert y == f(s[k]);
    }
  }

  /** A non-empty run of copies of `x`. */
  ghost predicate IsBlockOf<T>(t: seq<T>, x: T) {
    |t| > 0 && forall i :: 0 <= i < |t| ==> t[i] == x
  }

  /** A filter works row by row: filtering a concatenation filters each part. */
  lemma {:induction false} FilterConcat<T(!new)>(a: seq<T>, b: seq<T>, p: T -> bool)
    ensures Filter(a + b, p) == Filter(a, p) + Filter(b, p)
  {
    if |a| > 0 {
      var h := if p(a[0]) then [a[0]] else [];
      calc {
        Filter(a + b, p);
        == { FilterUnfold(a + b, p); assert (a + b)[0] == a[0]; }
        h + Filter((a + b)[1..], p);
        == { assert (a + b)[1..] == a[1..] + b; }
        h + Filter(a[1..] + b, p);
        == { FilterConcat(a[1..], b, p); }
        h + (Filter(a[1..], p) + Filter(b, p));
        (h + Filter(a[1..], p)) + Filter(b, p);
        == { FilterUnfold(a, p); }
        Filter(a, p) + Filter(b, p);
      }
    } else {
      assert a + b == b;
    }
  }

  lemma FilterUnfold<T(!new)>(s: seq<T>, p: T -> bool)
    requires |s| > 0
    ensures Filter(s, p) == (if p(s[0]) then [s[0]] else []) + Filter(s[1..], p)
  {
  }

  /** A run of rows that all pass a filter comes through it whole. */
  lemma FilterBlock<T(!new)>(t: seq<T>, x: T, p: T -> bool)
    requires IsBlockOf(t, x) && p(x)
    ensures Filter(t, p) == t
  {
    FilterKeepsAll(t, p);
  }

  lemma MapConcat<T, U>(a: seq<T>, b: seq<T>, f: T -> U)
    ensures Map(a + b, f) == Map(a, f) + Map(b, f)
  {
  }

  lemma MapBlock<T, U>(t: seq<T>, x: T, f: T -> U)
    requires IsBlockOf(t, x)
    ensures IsBlockOf(Map(t, f), f(x))
  {
  }

  // ---------------------------------------------------------------------------
  // row_number() == 1 per partition
  // ---------------------------------------------------------------------------

  /**
   * Spark's ascending sort order on a nullable integer column: NULL sorts
   * first (the default `asc` is `asc_nulls_first`), then by value.
   */
  predicate SortsBefore(a: Option<int>, b: Option<int>) {
    match a
    case None => b.Some?
    case Some(x) => b.Some? && x < b.value
  }

  /**
   * Row `i` precedes row `j` in the window order: by `ord`, and, where the
   * window leaves the tie unspecified, by input position.
   */
  predicate Precedes<T>(rows: seq<T>, ord: T -> Option<int>, i: int, j: int)
    requires 0 <= i < |rows| && 0 <= j < |rows|
  {
    SortsBefore(ord(rows[i]), ord(rows[j])) || (ord(rows[i]) == ord(rows[j]) && i < j)
  }

  /** The window order is a strict total order on positions. */
  lemma PrecedesTotalOrder<T>(rows: seq<T>, ord: T -> Option<int>, i: int, j: int, k: int)
    requires 0 <= i < |rows| && 0 <= j < |rows| && 0 <= k < |rows|
    ensures !Precedes(rows, ord, i, i)
    ensures i != j ==> (Precedes(rows, ord, i, j) <==> !Precedes(rows, ord, j, i))
    ensures Precedes(rows, ord, i, j) && Precedes(rows, ord, j, k) ==> Precedes(rows, ord, i, k)
  {
  }

  /** Row `i` gets `row_number() == 1` in its partition. */
  predicate IsFirstInPartition<T, K(==)>(rows: seq<T>, part: T -> K, ord: T -> Option<int>, i: int)
    requires 0 <= i < |rows|
  {
    forall j :: 0 <= j < |rows| && j != i && part(rows[j]) == part(rows[i]) ==> Precedes(rows, ord, i, j)
  }

  /** The rows at positions `k..` that are first in their partition, in input order. */
  function KeepFirstFrom<T(!new), K(==)>(rows: seq<T>, part: T -> K, ord: T -> Option<int>, k: nat): (r: seq<T>)
    requires k <= |rows|
    ensures |r| <= |rows| - k
    ensures forall x :: x in r <==>
      exists i :: k <= i < |rows| && rows[i] == x && IsFirstInPartition(rows, part, ord, i)
    ensures forall a, b :: 0 <= a < b < |r| ==> part(r[a]) != part(r[b])
    ensures multiset(r) <= multiset(rows[k..])
    decreases |rows| - k
  {
    if k == |rows| then []
    else
      var rest := KeepFirstFrom(rows, part, ord, k + 1);
      assert rows[k..] == [rows[k]] + rows[k + 1..];
      if IsFirstInPartition(rows, part, ord, k) then
        FirstApartFromLater(rows, part, ord, k, rest);
        [rows[k]] + rest
      else
        rest
  }

  /** A partition's first row shares its partition with no later partition-first row. */
  lemma FirstApartFromLater<T, K>(rows: seq<T>, part: T -> K, ord: T -> Option<int>, k: nat, rest: seq<T>)
    requires k < |rows| && IsFirstInPartition(rows, part, ord, k)
    requires forall x :: x in rest ==>
      exists i :: k < i < |rows| && rows[i] == x && IsFirstInPartition(rows, part, ord, i)
    ensures forall b :: 0 <= b < |rest| ==> part(rows[k]) != part(rest[b])
  {
    forall b | 0 <= b < |rest|
      ensures part(rows[k]) != part(rest[b])
    {
      assert rest[b] in rest;
      var i :| k < i < |rows| && rows[i] == rest[b] && IsFirstInPartition(rows, part, ord, i);
      PrecedesTotalOrder(rows, ord, k, i, i);
    }
  }

  /**
   * `withColumn("row_num", row_number().over(partitionBy(part).orderBy(ord)))
   *  .filter(row_num == 1)`: one row per partition, the first in window order.
   */
  function KeepFirstPerPartition<T(!new), K(==)>(rows: seq<T>, part: T -> K, ord: T -> Option<int>): (r: seq<T>)
    ensures |r| <= |rows|
    ensures forall a, b :: 0 <= a < b < |r| ==> part(r[a]) != part(r[b])
    ensures multiset(r) <= multiset(rows)
  {
    assert rows[0..] == rows;
    KeepFirstFrom(rows, part, ord, 0)
  }

  /** A row survives exactly when it comes first in window order within its partition. */
  lemma KeepFirstMembership<T(!new), K>(rows: seq<T>, part: T -> K, ord: T -> Option<int>, x: T)
    ensures x in KeepFirstPerPartition(rows, part, ord) <==>
      exists i :: 0 <= i < |rows| && rows[i] == x && IsFirstInPartition(rows, part, ord, i)
  {
    assert rows[0..] == rows;
  }

  /**
   * The position, among `rows[..n]`, of the row of partition `g` that comes
   * first in window order, if that partition occurs there.
   */
  function FirstOfPartitionIn<T, K(==)>(rows: seq<T>, part: T -> K, ord: T -> Option<int>, g: K, n: nat): (r: Option<nat>)
    requires n <= |rows|
    ensures r.None? <==> forall j :: 0 <= j < n ==> part(rows[j]) != g
    ensures r.Some? ==> r.value < n && part(rows[r.value]) == g
    ensures r.Some? ==> forall j :: 0 <= j < n && j != r.value && part(rows[j]) == g ==>
      Precedes(rows, ord, r.value, j)
  {
    if n == 0 then None
    else
      var prev := FirstOfPartitionIn(rows, part, ord, g, n - 1);
      if part(rows[n - 1]) != g then prev
      else if prev.None? then Some(n - 1)
      else if Precedes(rows, ord, n - 1, prev.value) then
        assert forall j :: 0 <= j < n - 1 && j != prev.value && part(rows[j]) == g ==>
          Precedes(rows, ord, n - 1, j) by {
          forall j | 0 <= j < n - 1 && j != prev.value && part(rows[j]) == g
            ensures Precedes(rows, ord, n - 1, j)
          {
            PrecedesTotalOrder(rows, ord, n - 1, prev.value, j);
          }
        }
        Some(n - 1)
      else
        PrecedesTotalOrder(rows, ord, n - 1, prev.value, n - 1);
        prev
  }

  /** Every partition present in the input keeps exactly one row: none vanishes. */
  lemma KeepFirstCoversPartitions<T(!new), K>(rows: seq<T>, part: T -> K, ord: T -> Option<int>, i: int)
    requires 0 <= i < |rows|
    ensures exists x :: x in KeepFirstPerPartition(rows, part, ord) && part(x) == part(rows[i])
  {
    var best := FirstOfPartitionIn(rows, part, ord, part(rows[i]), |rows|);
    var b := best.value;
    assert IsFirstInPartition(rows, part, ord, b);
    KeepFirstMembership(rows, part, ord, rows[b]);
  }

  /** The kept row of a partition is at or before every row of that partition in window order. */
  lemma KeepFirstIsMinimal<T(!new), K>(rows: seq<T>, part: T -> K, ord: T -> Option<int>, x: T, j: int)
    requires x in KeepFirstPerPartition(rows, part, ord)
    requires 0 <= j < |rows| && part(rows[j]) == part(x)
    ensures !SortsBefore(ord(rows[j]), ord(x))
  {
    KeepFirstMembership(rows, part, ord, x);
    var i :| 0 <= i < |rows| && rows[i] == x && IsFirstInPartition(rows, part, ord, i);
    if j != i {
      PrecedesTotalOrder(rows, ord, i, j, j);
    }
  }

  /** Partition keys that are already distinct make the deduplication the identity. */
  lemma {:induction false} KeepFirstFromDistinct<T(!new), K>(rows: seq<T>, part: T -> K, ord: T -> Option<int>, k: nat)
    requires k <= |rows|
    requires forall a, b :: 0 <= a < b < |rows| ==> part(rows[a]) != part(rows[b])
    ensures KeepFirstFrom(rows, part, ord, k) == rows[k..]
    decreases |rows| - k
  {
    if k < |rows| {
      KeepFirstFromDistinct(rows, part, ord, k + 1);
      assert IsFirstInPartition(rows, part, ord, k);
      assert rows[k..] == [rows[k]] + rows[k + 1..];
    }
  }

  lemma KeepFirstOfDistinct<T(!new), K>(rows: seq<T>, part: T -> K, ord: T -> Option<int>)
    requires forall a, b :: 0 <= a < b < |rows| ==> part(rows[a]) != part(rows[b])
    ensures KeepFirstPerPartition(rows, part, ord) == rows
  {
    KeepFirstFromDistinct(rows, part, ord, 0);
  }

  /** Row `i` of `a` is first in its partition within `a + b` exactly when it is within `a`. */
  lemma FirstInConcatLeft<T, K>(a: seq<T>, b: seq<T>, part: T -> K, ord: T -> Option<int>, i: int)
    requires forall x, y :: x in a && y in b ==> part(x) != part(y)
    requires 0 <= i < |a|
    ensures IsFirstInPartition(a + b, part, ord, i) <==> IsFirstInPartition(a, part, ord, i)
  {
    var rows := a + b;
    assert rows[i] == a[i] && a[i] in a;
    forall j | |a| <= j < |rows| ensures part(rows[j]) != part(rows[i]) {
      assert rows[j] == b[j - |a|] && b[j - |a|] in b;
    }
    forall j | 0 <= j < |a| ensures rows[j] == a[j] && (Precedes(rows, ord, i, j) <==> Precedes(a, ord, i, j)) {
    }
  }

  /** Row `i` of `b` is first in its partition within `a + b` exactly when it is within `b`. */
  lemma FirstInConcatRight<T, K>(a: seq<T>, b: seq<T>, part: T -> K, ord: T -> Option<int>, i: int)
    requires forall x, y :: x in a && y in b ==> part(x) != part(y)
    requires 0 <= i < |b|
    ensures IsFirstInPartition(a + b, part, ord, |a| + i) <==> IsFirstInPartition(b, part, ord, i)
  {
    var rows := a + b;
    assert rows[|a| + i] == b[i] && b[i] in b;
    forall j | 0 <= j < |a| ensures part(rows[j]) != part(rows[|a| + i]) {
      assert rows[j] == a[j] && a[j] in a;
    }
    forall j | 0 <= j < |b|
      ensures rows[|a| + j] == b[j] && (Precedes(rows, ord, |a| + i, |a| + j) <==> Precedes(b, ord, i, j))
    {
    }
    if IsFirstInPartition(b, part, ord, i) {
      forall j | 0 <= j < |rows| && j != |a| + i && part(rows[j]) == part(rows[|a| + i])
        ensures Precedes(rows, ord, |a| + i, j)
      {
        assert j - |a| != i;
      }
    }
  }

  lemma {:induction false} KeepFirstFromRight<T(!new), K>(a: seq<T>, b: seq<T>, part: T -> K, ord: T -> Option<int>, k: nat)
    requires forall x, y :: x in a && y in b ==> part(x) != part(y)
    requires |a| <= k <= |a| + |b|
    ensures KeepFirstFrom(a + b, part, ord, k) == KeepFirstFrom(b, part, ord, k - |a|)
    decreases |a| + |b| - k
  {
    var i: nat := k - |a|;
    if i < |b| {
      KeepFirstFromRight(a, b, part, ord, k + 1);
      assert k + 1 - |a| == i + 1;
      FirstInConcatRight(a, b, part, ord, i);
      assert |a| + i == k;
      assert (a + b)[k] == b[i];
      KeepFirstFromUnfold(a + b, part, ord, k);
      KeepFirstFromUnfold(b, part, ord, i);
      PrependIf(b[i], IsFirstInPartition(a + b, part, ord, k), IsFirstInPartition(b, part, ord, i),
        KeepFirstFrom(a + b, part, ord, k + 1), KeepFirstFrom(b, part, ord, i + 1));
    }
  }

  lemma PrependIf<T>(x: T, f: bool, g: bool, l: seq<T>, r: seq<T>)
    requires (f <==> g) && l == r
    ensures (if f then [x] else []) + l == (if g then [x] else []) + r
  {
  }

  lemma KeepFirstFromUnfold<T(!new), K>(rows: seq<T>, part: T -> K, ord: T -> Option<int>, k: nat)
    requires k < |rows|
    ensures KeepFirstFrom(rows, part, ord, k)
      == (if IsFirstInPartition(rows, part, ord, k) then [rows[k]] else []) + KeepFirstFrom(rows, part, ord, k + 1)
  {
  }

  lemma {:induction false} KeepFirstFromLeft<T(!new), K>(a: seq<T>, b: seq<T>, part: T -> K, ord: T -> Option<int>, k: nat)
    requires forall x, y :: x in a && y in b ==> part(x) != part(y)
    requires k <= |a|
    ensures KeepFirstFrom(a + b, part, ord, k) == KeepFirstFrom(a, part, ord, k) + KeepFirstFrom(b, part, ord, 0)
    decreases |a| - k
  {
    if k == |a| {
      KeepFirstFromRight(a, b, part, ord, k);
    } else {
      KeepFirstFromLeft(a, b, part, ord, k + 1);
      FirstInConcatLeft(a, b, part, ord, k);
      assert (a + b)[k] == a[k];
    }
  }

  /**
   * Two tables with no partition in common deduplicate independently: the
   * window never compares a row of one with a row of the other.
   */
  lemma KeepFirstConcat<T(!new), K>(a: seq<T>, b: seq<T>, part: T -> K, ord: T -> Option<int>)
    requires forall x, y :: x in a && y in b ==> part(x) != part(y)
    ensures KeepFirstPerPartition(a + b, part, ord) == KeepFirstPerPartition(a, part, ord) + KeepFirstPerPartition(b, part, ord)
  {
    KeepFirstFromLeft(a, b, part, ord, 0);
    assert (a + b)[0..] == a + b && a[0..] == a && b[0..] == b;
  }

  lemma {:induction false} KeepFirstFromBlockTail<T(!new), K>(t: seq<T>, x: T, part: T -> K, ord: T -> Option<int>, k: nat)
    requires IsBlockOf(t, x) && 1 <= k <= |t|
    ensures KeepFirstFrom(t, part, ord, k) == []
    decreases |t| - k
  {
    if k < |t| {
      KeepFirstFromBlockTail(t, x, part, ord, k + 1);
      assert !Precedes(t, ord, k, 0);
    }
  }

  /** Copies of one row deduplicate to that row. */
  lemma KeepFirstOfBlock<T(!new), K>(t: seq<T>, x: T, part: T -> K, ord: T -> Option<int>)
    requires IsBlockOf(t, x)
    ensures KeepFirstPerPartition(t, part, ord) == [x]
  {
    KeepFirstFromBlockTail(t, x, part, ord, 1);
    assert IsFirstInPartition(t, part, ord, 0);
    assert t[0..] == t;
  }

  /** Copies of one row followed by rows of other partitions: the row, then the rest deduplicated. */
  lemma KeepFirstOfBlockThen<T(!new), K>(head: seq<T>, tail: seq<T>, x: T, rest: seq<T>, part: T -> K, ord: T -> Option<int>)
    requires IsBlockOf(head, x)
    requires forall a, b :: a in head && b in tail ==> part(a) != part(b)
    requires KeepFirstPerPartition(tail, part, ord) == rest
    ensures KeepFirstPerPartition(head + tail, part, ord) == [x] + rest
  {
    KeepFirstConcat(head, tail, part, ord);
    KeepFirstOfBlock(head, x, part, ord);
  }

  // ---------------------------------------------------------------------------
  // equi-join against a column of dimension keys
  // ---------------------------------------------------------------------------

  /** How many dimension rows an equi-join pairs with key `k`; NULL matches nothing. */
  function MatchCount(keys: seq<Option<int>>, k: Option<int>): (n: nat)
    ensures n == 0 <==> k.None? || k !in keys
    ensures n <= |keys|
  {
    if k.None? || |keys| == 0 then 0
    else (if keys[0] == k then 1 else 0) + MatchCount(keys[1..], k)
  }

  /** `n` copies of `x`. */
  function Replicate<T>(x: T, n: nat): (r: seq<T>)
    ensures |r| == n
    ensures forall i :: 0 <= i < n ==> r[i] == x
  {
    seq(n, _ => x)
  }

  /** `n` copies of `x` hold `x` with multiplicity `n` and nothing else. */
  lemma {:induction false} ReplicateCount<T>(x: T, n: nat)
    ensures multiset(Replicate(x, n)) == multiset{}[x := n]
  {
    if n > 0 {
      ReplicateCount(x, n - 1);
      assert Replicate(x, n) == Replicate(x, n - 1) + [x];
    }
  }

  /**
   * `rows.join(dim.select(key), key, "inner")`: each row once per dimension
   * row carrying the same non-null key.
   */
  function InnerJoinKeys<T(!new)>(rows: seq<T>, key: T -> Option<int>, keys: seq<Option<int>>): (r: seq<T>)
    ensures forall x :: x in r <==> x in rows && key(x).Some? && key(x) in keys
    ensures forall x :: multiset(r)[x] == multiset(rows)[x] * MatchCount(keys, key(x))
  {
    if |rows| == 0 then []
    else
      assert rows == [rows[0]] + rows[1..];
      var copies := Replicate(rows[0], MatchCount(keys, key(rows[0])));
      assert forall x :: x in copies <==> |copies| > 0 && x == rows[0] by {
        if |copies| > 0 { assert copies[0] in copies; }
      }
      var rest := InnerJoinKeys(rows[1..], key, keys);
      assert forall x :: multiset(copies + rest)[x] == multiset(rows)[x] * MatchCount(keys, key(x)) by {
        forall x ensures multiset(copies + rest)[x] == multiset(rows)[x] * MatchCount(keys, key(x)) {
          JoinCountStep(rows, key, keys, rest, x);
        }
      }
      copies + rest
  }

  /** The multiplicity of `x` after joining the first row, given it for the remaining rows. */
  lemma JoinCountStep<T>(rows: seq<T>, key: T -> Option<int>, keys: seq<Option<int>>, rest: seq<T>, x: T)
    requires |rows| > 0
    requires multiset(rest)[x] == multiset(rows[1..])[x] * MatchCount(keys, key(x))
    ensures multiset(Replicate(rows[0], MatchCount(keys, key(rows[0]))) + rest)[x]
      == multiset(rows)[x] * MatchCount(keys, key(x))
  {
    var n := MatchCount(keys, key(rows[0]));
    var m := multiset(rows[1..])[x];
    ReplicateCount(rows[0], n);
    assert rows == [rows[0]] + rows[1..];
    if x == rows[0] {
      assert multiset(rows)[x] == 1 + m;
      DistributeOne(m, n);
    } else {
      assert multiset(rows)[x] == m;
    }
  }

  lemma DistributeOne(m: nat, c: nat)
    ensures (1 + m) * c == c + m * c
  {
  }

  /** A join works row by row: joining a concatenation joins each part. */
  lemma {:induction false} InnerJoinConcat<T(!new)>(a: seq<T>, b: seq<T>, key: T -> Option<int>, keys: seq<Option<int>>)
    ensures InnerJoinKeys(a + b, key, keys) == InnerJoinKeys(a, key, keys) + InnerJoinKeys(b, key, keys)
  {
    if |a| > 0 {
      var h := Replicate(a[0], MatchCount(keys, key(a[0])));
      calc {
        InnerJoinKeys(a + b, key, keys);
        == { InnerJoinUnfold(a + b, key, keys); assert (a + b)[0] == a[0]; }
        h + InnerJoinKeys((a + b)[1..], key, keys);
        == { assert (a + b)[1..] == a[1..] + b; }
        h + InnerJoinKeys(a[1..] + b, key, keys);
        == { InnerJoinConcat(a[1..], b, key, keys); }
        h + (InnerJoinKeys(a[1..], key, keys) + InnerJoinKeys(b, key, keys));
        (h + InnerJoinKeys(a[1..], key, keys)) + InnerJoinKeys(b, key, keys);
        == { InnerJoinUnfold(a, key, keys); }
        InnerJoinKeys(a, key, keys) + InnerJoinKeys(b, key, keys);
      }
    } else {
      assert a + b == b;
    }
  }

  lemma InnerJoinUnfold<T(!new)>(rows: seq<T>, key: T -> Option<int>, keys: seq<Option<int>>)
    requires |rows| > 0
    ensures InnerJoinKeys(rows, key, keys)
      == Replicate(rows[0], MatchCount(keys, key(rows[0]))) + InnerJoinKeys(rows[1..], key, keys)
  {
  }

  /** Copies of a row that matches come out of the join as (more) copies of it. */
  lemma {:induction false} InnerJoinBlock<T(!new)>(t: seq<T>, x: T, key: T -> Option<int>, keys: seq<Option<int>>)
    requires IsBlockOf(t, x) && key(x).Some? && key(x) in keys
    ensures IsBlockOf(InnerJoinKeys(t, key, keys), x)
  {
    var copies := Replicate(x, MatchCount(keys, key(x)));
    assert t[0] == x;
    if |t| > 1 {
      InnerJoinBlock(t[1..], x, key, keys);
    } else {
      assert InnerJoinKeys(t[1..], key, keys) == [];
    }
  }

  lemma {:induction false} MatchCountUnique(keys: seq<Option<int>>, k: Option<int>)
    requires UniqueKeys(keys)
    requires k.Some? && k in keys
    ensures MatchCount(keys, k) == 1
  {
    if keys[0] == k {
      assert k !in keys[1..];
    } else {
      assert UniqueKeys(keys[1..]);
      MatchCountUnique(keys[1..], k);
    }
  }

  /**
   * Against unique dimension keys the join only drops rows; it never
   * duplicates one. `p` is any predicate that holds of a row exactly when its
   * key is present and among `keys`.
   */
  lemma {:induction false} InnerJoinUniqueIsFilter<T(!new)>(rows: seq<T>, key: T -> Option<int>, keys: seq<Option<int>>, p: T -> bool)
    requires UniqueKeys(keys)
    requires forall x :: p(x) == (key(x).Some? && key(x) in keys)
    ensures InnerJoinKeys(rows, key, keys) == Filter(rows, p)
  {
    if |rows| > 0 {
      var x, rest := rows[0], rows[1..];
      InnerJoinUniqueIsFilter(rest, key, keys, p);
      InnerJoinUnfold(rows, key, keys);
      FilterUnfold(rows, p);
      var n := MatchCount(keys, key(x));
      var copies := Replicate(x, n);
      if p(x) {
        MatchCountUnique(keys, key(x));
        assert copies == [x];
      } else {
        assert n == 0;
        assert copies == [];
      }
      assert InnerJoinKeys(rows, key, keys) == copies + Filter(rest, p);
    }
  }

  /** Two filters in a row are one filter by the conjunction. */
  lemma {:induction false} FilterFilter<T(!new)>(s: seq<T>, p: T -> bool, q: T -> bool, pq: T -> bool)
    requires forall x :: pq(x) == (p(x) && q(x))
    ensures Filter(Filter(s, p), q) == Filter(s, pq)
  {
    if |s| > 0 {
      FilterFilter(s[1..], p, q, pq);
      FilterUnfold(s, p);
      FilterUnfold(s, pq);
      var rest := Filter(s[1..], p);
      if p(s[0]) {
        var fs := Filter(s, p);
        assert fs == [s[0]] + rest;
        assert fs[0] == s[0] && fs[1..] == rest;
        FilterUnfold(fs, q);
        assert Filter(fs, q) == (if q(s[0]) then [s[0]] else []) + Filter(rest, q);
      } else {
        assert Filter(s, p) == rest;
      }
    }
  }
}

=== FILE: star.dfy ===
/**
 * `create_star_schema`: project the two dimensions, price every sale by a
 * left join with the products, and derive the amounts of the fact table.
 * `RunPipeline` is the cleaning-and-assembly sequence of `main`.
 */
module StarSchema {
  import opened Wrappers
  import opened Seqs
  import opened Records
  import opened Email
  import opened CustomerCleaning
  import opened ProductCleaning
  import opened SaleCleaning

  // ---------------------------------------------------------------------------
  // dimensions
  // ---------------------------------------------------------------------------

  function ToDimCustomer(c: Customer): DimCustomer {
    DimCustomer(c.customerId, c.name, c.email, c.country, c.registrationDate, c.segment, c.city)
  }

  function ToDimProduct(p: Product): DimProduct {
    DimProduct(p.productId, p.productName, p.category, p.unitPrice, p.supplier, p.rating)
  }

  /** `customers.select(customer_id, name, email, country, registration_date, segment, city)` */
  function DimCustomers(customers: seq<Customer>): (r: seq<DimCustomer>)
    ensures |r| == |customers|
    ensures forall i :: 0 <= i < |r| ==>
      var c := customers[i];
      && r[i].customerId == c.customerId && r[i].name == c.name && r[i].email == c.email
      && r[i].country == c.country && r[i].registrationDate == c.registrationDate
      && r[i].segment == c.segment && r[i].city == c.city
  {
    Map(customers, ToDimCustomer)
  }

  /** `products.select(product_id, product_name, category, unit_price, supplier, rating)` */
  function DimProducts(products: seq<Product>): (r: seq<DimProduct>)
    ensures |r| == |products|
    ensures forall i :: 0 <= i < |r| ==>
      var p := products[i];
      && r[i].productId == p.productId && r[i].productName == p.productName && r[i].category == p.category
      && r[i].unitPrice == p.unitPrice && r[i].supplier == p.supplier && r[i].rating == p.rating
  {
    Map(products, ToDimProduct)
  }

  // ---------------------------------------------------------------------------
  // amounts
  // ---------------------------------------------------------------------------

  /** An integer quantity times a price, as Spark widens the integer to a double. */
  function Times(quantity: int, unitPrice: real): real {
    quantity as real * unitPrice
  }

  /** `quantity * unit_price`: NULL when either is, positive when both are. */
  function AmountBeforeDiscount(quantity: Option<int>, unitPrice: Option<real>): (r: Option<real>)
    ensures r.Some? <==> quantity.Some? && unitPrice.Some?
    ensures r.Some? && quantity.value > 0 && unitPrice.value > 0.0 ==> r.value > 0.0
  {
    if quantity.Some? && unitPrice.Some? then
      assert quantity.value > 0 && unitPrice.value > 0.0 ==> Times(quantity.value, unitPrice.value) > 0.0 by {
        if quantity.value > 0 && unitPrice.value > 0.0 {
          PositiveProduct(quantity.value as real, unitPrice.value);
        }
      }
      Some(Times(quantity.value, unitPrice.value))
    else None
  }

  /** `percent` per cent of `amount`. */
  function PercentOf(amount: real, percent: int): real {
    amount * (percent as real / 100.0)
  }

  /**
   * `amount_before_discount * (discount_percent / 100)`: NULL when either is,
   * and within [0, amount] for a non-negative amount and a percentage in [0, 100].
   */
  function DiscountAmount(amount: Option<real>, discountPercent: Option<int>): (r: Option<real>)
    ensures r.Some? <==> amount.Some? && discountPercent.Some?
    ensures r.Some? && amount.value >= 0.0 && 0 <= discountPercent.value <= MaxDiscount ==>
      0.0 <= r.value <= amount.value
  {
    if amount.Some? && discountPercent.Some? then
      var a, d := amount.value, discountPercent.value;
      assert a >= 0.0 && 0 <= d <= MaxDiscount ==> 0.0 <= PercentOf(a, d) <= a by {
        if a >= 0.0 && 0 <= d <= MaxDiscount {
          PercentOfBounded(a, d);
        }
      }
      Some(PercentOf(a, d))
    else None
  }

  /** `amount_before_discount - discount_amount`: NULL when either is; adding the discount back gives the amount. */
  function TotalAmount(amount: Option<real>, discount: Option<real>): (r: Option<real>)
    ensures r.Some? <==> amount.Some? && discount.Some?
    ensures r.Some? ==> r.value + discount.value == amount.value
  {
    if amount.Some? && discount.Some? then Some(amount.value - discount.value) else None
  }

  /**
   * A sale with the unit price the join found for it, and the derived
   * amounts: every sale column is carried over, and the discount and total
   * are present exactly when quantity, price and discount percentage are.
   */
  function PriceSale(s: Sale, unitPrice: Option<real>): (r: FactSale)
    ensures r.saleId == s.saleId && r.customerId == s.customerId && r.productId == s.productId
    ensures r.saleDate == s.date && r.quantity == s.quantity && r.discountPercent == s.discountPercent
    ensures r.paymentMethod == s.paymentMethod && r.status == s.status && r.unitPrice == unitPrice
    ensures r.amountBeforeDiscount.Some? <==> s.quantity.Some? && unitPrice.Some?
    ensures r.totalAmount.Some? <==> r.discountAmount.Some?
    ensures r.discountAmount.Some? <==> s.quantity.Some? && unitPrice.Some? && s.discountPercent.Some?
    ensures r.totalAmount.Some? ==> r.totalAmount.value + r.discountAmount.value == r.amountBeforeDiscount.value
  {
    var amount := AmountBeforeDiscount(s.quantity, unitPrice);
    var discount := DiscountAmount(amount, s.discountPercent);
    FactSale(s.saleId, s.customerId, s.productId, s.date, s.quantity, unitPrice, s.discountPercent,
      amount, discount, TotalAmount(amount, discount), s.paymentMethod, s.status)
  }

  /**
   * For a positive quantity and price and a discount in [0, 100], the
   * amounts are all present, the total and the discount add up to the
   * amount before discount, and neither exceeds it nor is negative.
   */
  lemma AmountsBounded(quantity: int, unitPrice: real, discountPercent: int)
    requires quantity > 0 && unitPrice > 0.0 && 0 <= discountPercent <= MaxDiscount
    ensures var amount := AmountBeforeDiscount(Some(quantity), Some(unitPrice));
      var discount := DiscountAmount(amount, Some(discountPercent));
      var total := TotalAmount(amount, discount);
      && amount.Some? && discount.Some? && total.Some?
      && amount.value > 0.0
      && total.value + discount.value == amount.value
      && total.value == amount.value * ((100 - discountPercent) as real / 100.0)
      && 0.0 <= discount.value <= amount.value
      && 0.0 <= total.value <= amount.value
  {
    var a := quantity as real * unitPrice;
    var f := discountPercent as real / 100.0;
    assert a > 0.0 by { PositiveProduct(quantity as real, unitPrice); }
    assert 0.0 <= a * f <= a by { FractionBounded(a, f); }
  }

  lemma PositiveProduct(x: real, y: real)
    requires x > 0.0 && y > 0.0
    ensures x * y > 0.0
  {
  }

  lemma PercentOfBounded(a: real, d: int)
    requires a >= 0.0 && 0 <= d <= 100
    ensures 0.0 <= PercentOf(a, d) <= a
  {
    var f := d as real / 100.0;
    assert 0.0 <= f <= 1.0;
    FractionBounded(a, f);
    assert PercentOf(a, d) == a * f;
  }

  lemma FractionBounded(a: real, f: real)
    requires a >= 0.0 && 0.0 <= f <= 1.0
    ensures 0.0 <= a * f <= a
  {
    assert a * f <= a * 1.0;
  }

  /** Three units at 20.00 with a 10% discount: 60.00 before discount, 6.00 off, 54.00 in total. */
  lemma ThreeAtTwentyWithTenPercentOff()
    ensures AmountBeforeDiscount(Some(3), Some(20.0)) == Some(60.0)
    ensures DiscountAmount(Some(60.0), Some(10)) == Some(6.0)
    ensures TotalAmount(Some(60.0), Some(6.0)) == Some(54.0)
  {
  }

  // ---------------------------------------------------------------------------
  // fact table
  // ---------------------------------------------------------------------------

  /** The unit prices of the product rows carrying the non-null id `id`, in product order. */
  function PricesOf(products: seq<Product>, id: Option<int>): (r: seq<Option<real>>)
    ensures forall x :: x in r <==> exists p :: p in products && id.Some? && p.productId == id && p.unitPrice == x
  {
    if |products| == 0 then []
    else
      assert forall p :: p in products <==> p == products[0] || p in products[1..];
      (if id.Some? && products[0].productId == id then [products[0].unitPrice] else []) + PricesOf(products[1..], id)
  }

  /** The join attaches one price per product row with the sale's id: the inner join's multiplicity. */
  lemma {:induction false} PricesOfCount(products: seq<Product>, id: Option<int>)
    ensures |PricesOf(products, id)| == MatchCount(ProductKeys(products), id)
  {
    if |products| > 0 {
      assert ProductKeys(products) == [products[0].productId] + ProductKeys(products[1..]);
      PricesOfCount(products[1..], id);
    }
  }

  /**
   * `sales.join(products.select("product_id", "unit_price"), "product_id", "left")`
   * with the amounts derived: one fact row per matching product row, or a
   * single row with a NULL price when none matches.
   */
  function FactRows(sales: seq<Sale>, products: seq<Product>): (r: seq<FactSale>)
    ensures |r| >= |sales|
  {
    if |sales| == 0 then []
    else
      var s := sales[0];
      var prices := PricesOf(products, s.productId);
      var priced := if |prices| == 0 then [PriceSale(s, None)] else Map(prices, (u: Option<real>) => PriceSale(s, u));
      priced + FactRows(sales[1..], products)
  }

  /** A fact row traced back to its sale and the price the join attached to it. */
  lemma FactRowSource(sales: seq<Sale>, products: seq<Product>, f: FactSale) returns (s: Sale, price: Option<real>)
    requires f in FactRows(sales, products)
    ensures s in sales && f == PriceSale(s, price)
    ensures price in PricesOf(products, s.productId) || (price.None? && |PricesOf(products, s.productId)| == 0)
  {
    var head := sales[0];
    var prices := PricesOf(products, head.productId);
    var priced := if |prices| == 0 then [PriceSale(head, None)] else Map(prices, (u: Option<real>) => PriceSale(head, u));
    assert FactRows(sales, products) == priced + FactRows(sales[1..], products);
    if f in priced {
      s := head;
      if |prices| == 0 {
        price := None;
      } else {
        var i :| 0 <= i < |priced| && priced[i] == f;
        price := prices[i];
      }
    } else {
      s, price := FactRowSource(sales[1..], products, f);
    }
  }

  /** The left join drops no sale: every sale has a fact row with its sale_id. */
  lemma {:induction false} FactRowsCoverSales(sales: seq<Sale>, products: seq<Product>)
    ensures forall i :: 0 <= i < |sales| ==> exists f :: f in FactRows(sales, products) && f.saleId == sales[i].saleId
  {
    if |sales| > 0 {
      var s := sales[0];
      var prices := PricesOf(products, s.productId);
      var priced := if |prices| == 0 then [PriceSale(s, None)] else Map(prices, (u: Option<real>) => PriceSale(s, u));
      var rest := FactRows(sales[1..], products);
      assert FactRows(sales, products) == priced + rest;
      FactRowsCoverSales(sales[1..], products);
      assert priced[0] in FactRows(sales, products) && priced[0].saleId == s.saleId;
      forall i | 1 <= i < |sales| ensures exists f :: f in FactRows(sales, products) && f.saleId == sales[i].saleId {
        assert sales[1..][i - 1] == sales[i];
        var f :| f in rest && f.saleId == sales[i].saleId;
      }
    }
  }

  /**
   * The left join's other direction: each sale is priced by every product
   * row carrying its id, or once with a NULL price when no row does.
   */
  lemma {:induction false} FactRowsPriceEach(sales: seq<Sale>, products: seq<Product>, i: int, u: Option<real>)
    requires 0 <= i < |sales|
    requires u in PricesOf(products, sales[i].productId)
      || (u.None? && |PricesOf(products, sales[i].productId)| == 0)
    ensures PriceSale(sales[i], u) in FactRows(sales, products)
  {
    var s := sales[0];
    var prices := PricesOf(products, s.productId);
    var priced := if |prices| == 0 then [PriceSale(s, None)] else Map(prices, (v: Option<real>) => PriceSale(s, v));
    assert FactRows(sales, products) == priced + FactRows(sales[1..], products);
    if i == 0 {
      if |prices| == 0 {
        assert priced[0] == PriceSale(s, u);
      } else {
        var k :| 0 <= k < |prices| && prices[k] == u;
        assert priced[k] == PriceSale(s, u);
      }
    } else {
      assert sales[1..][i - 1] == sales[i];
      FactRowsPriceEach(sales[1..], products, i - 1, u);
    }
  }

  /** The number of rows the left join gives `sales`: each sale's match count, or one when nothing matches. */
  function FactRowCount(sales: seq<Sale>, products: seq<Product>): nat {
    if |sales| == 0 then 0
    else
      var n := MatchCount(ProductKeys(products), sales[0].productId);
      (if n == 0 then 1 else n) + FactRowCount(sales[1..], products)
  }

  /** The left join keeps one copy of a sale per matching product row, and one when none matches. */
  lemma {:induction false} FactRowsCount(sales: seq<Sale>, products: seq<Product>)
    ensures |FactRows(sales, products)| == FactRowCount(sales, products)
  {
    if |sales| > 0 {
      PricesOfCount(products, sales[0].productId);
      FactRowsCount(sales[1..], products);
    }
  }

  /** With one product row per id, the left join neither drops nor duplicates a sale. */
  lemma {:induction false} FactRowsOnePerSale(sales: seq<Sale>, products: seq<Product>)
    requires UniqueKeys(ProductKeys(products))
    ensures |FactRows(sales, products)| == |sales|
    ensures forall i :: 0 <= i < |sales| ==> FactRows(sales, products)[i].saleId == sales[i].saleId
  {
    if |sales| > 0 {
      var s := sales[0];
      if s.productId.Some? && s.productId in ProductKeys(products) {
        MatchCountUnique(ProductKeys(products), s.productId);
      }
      PricesOfCount(products, s.productId);
      FactRowsOnePerSale(sales[1..], products);
    }
  }

  /** Two product rows sharing an id turn one sale into two fact rows with the same sale_id. */
  lemma DuplicateProductIdDuplicatesFact()
    ensures var sale := Sale(Some(1001), Some(1), Some(42), Some(0), Some(3), Some(10), None, None);
      var first := Product(Some(42), None, None, Some(10.0), None, None, None, None);
      var second := Product(Some(42), None, None, Some(12.0), None, None, None, None);
      var facts := FactRows([sale], [first, second]);
      |facts| == 2 && facts[0].saleId == facts[1].saleId
  {
    var sale := Sale(Some(1001), Some(1), Some(42), Some(0), Some(3), Some(10), None, None);
    var first := Product(Some(42), None, None, Some(10.0), None, None, None, None);
    var second := Product(Some(42), None, None, Some(12.0), None, None, None, None);
    var products := [first, second];
    assert products[1..] == [second];
    assert [second][1..] == [];
    assert PricesOf([second], Some(42)) == [Some(12.0)];
    assert PricesOf(products, Some(42)) == [Some(10.0), Some(12.0)];
  }

  // ---------------------------------------------------------------------------
  // assembly
  // ---------------------------------------------------------------------------

  datatype Star = Star(factSales: seq<FactSale>, dimCustomer: seq<DimCustomer>, dimProduct: seq<DimProduct>)

  /**
   * `create_star_schema(customers, products, sales)`: one dimension row per
   * customer and product, with its key, and at least one fact row for every
   * sale, carrying its sale_id.
   */
  function CreateStarSchema(customers: seq<Customer>, products: seq<Product>, sales: seq<Sale>): (r: Star)
    ensures |r.dimCustomer| == |customers| && |r.dimProduct| == |products|
    ensures forall i :: 0 <= i < |customers| ==> r.dimCustomer[i].customerId == customers[i].customerId
    ensures forall i :: 0 <= i < |products| ==> r.dimProduct[i].productId == products[i].productId
    ensures |r.factSales| >= |sales|
    ensures forall i :: 0 <= i < |sales| ==> exists f :: f in r.factSales && f.saleId == sales[i].saleId
  {
    FactRowsCoverSales(sales, products);
    Star(FactRows(sales, products), DimCustomers(customers), DimProducts(products))
  }

  /**
   * The cleaning and assembly of `main`, with `today` standing for
   * `current_date()`: the dimensions are no larger than the raw tables, every
   * `dim_customer` email is well-formed and every `dim_product` price positive.
   */
  function RunPipeline(customers: seq<Customer>, products: seq<Product>, sales: seq<Sale>,
                       medianOf: string -> Option<real>, today: int): (r: Star)
    ensures |r.dimCustomer| <= |customers| && |r.dimProduct| <= |products|
    ensures forall i :: 0 <= i < |r.dimCustomer| ==>
      r.dimCustomer[i].email.Some? && IsValidEmail(r.dimCustomer[i].email.value)
    ensures forall i :: 0 <= i < |r.dimProduct| ==>
      r.dimProduct[i].unitPrice.Some? && r.dimProduct[i].unitPrice.value > 0.0
  {
    var cleanCustomers := CleanCustomers(customers);
    var cleanProducts := CleanProducts(products, medianOf);
    var cleanSales := CleanSales(sales, cleanCustomers, cleanProducts, today);
    var star := CreateStarSchema(cleanCustomers, cleanProducts, cleanSales);
    CleanCustomerDimension(customers);
    CleanProductDimension(products, medianOf);
    star
  }

  /** Every row of `dim_customer` built from the cleaned customers has a well-formed email. */
  lemma CleanCustomerDimension(customers: seq<Customer>)
    ensures var dims := DimCustomers(CleanCustomers(customers));
      && |dims| <= |customers|
      && forall i :: 0 <= i < |dims| ==> dims[i].email.Some? && IsValidEmail(dims[i].email.value)
  {
    var clean := CleanCustomers(customers);
    var dims := DimCustomers(clean);
    forall i | 0 <= i < |dims| ensures dims[i].email.Some? && IsValidEmail(dims[i].email.value) {
      assert dims[i].email == clean[i].email && HasValidEmail(clean[i]);
    }
  }

  /** Every row of `dim_product` built from the cleaned products has a positive price. */
  lemma CleanProductDimension(products: seq<Product>, medianOf: string -> Option<real>)
    ensures var dims := DimProducts(CleanProducts(products, medianOf));
      && |dims| <= |products|
      && forall i :: 0 <= i < |dims| ==> dims[i].unitPrice.Some? && dims[i].unitPrice.value > 0.0
  {
    var clean := CleanProducts(products, medianOf);
    var dims := DimProducts(clean);
    forall i | 0 <= i < |dims| ensures dims[i].unitPrice.Some? && dims[i].unitPrice.value > 0.0 {
      var kept := KeepPositivePrice(products);
      assert kept[i] in kept;
      assert dims[i].unitPrice == clean[i].unitPrice == kept[i].unitPrice;
    }
  }

  // ---------------------------------------------------------------------------
  // properties of the assembled schema
  // ---------------------------------------------------------------------------

  lemma DimCustomerOf(customers: seq<Customer>, c: Customer)
    requires c in customers
    ensures ToDimCustomer(c) in DimCustomers(customers)
  {
    var i :| 0 <= i < |customers| && customers[i] == c;
    assert DimCustomers(customers)[i] == ToDimCustomer(c);
  }

  lemma DimProductOf(products: seq<Product>, p: Product)
    requires p in products
    ensures ToDimProduct(p) in DimProducts(products)
  {
    var i :| 0 <= i < |products| && products[i] == p;
    assert DimProducts(products)[i] == ToDimProduct(p);
  }

  /**
   * A fact row of the pipeline traced back to its cleaned sale and to the
   * cleaned product whose price the join attached.
   */
  lemma PipelineFactSource(customers: seq<Customer>, products: seq<Product>, sales: seq<Sale>,
                           medianOf: string -> Option<real>, today: int, f: FactSale)
    returns (s: Sale, p: Product)
    requires f in RunPipeline(customers, products, sales, medianOf, today).factSales
    ensures s in CleanSales(sales, CleanCustomers(customers), CleanProducts(products, medianOf), today)
    ensures p in CleanProducts(products, medianOf) && p.productId == s.productId
    ensures f == PriceSale(s, p.unitPrice)
  {
    var cleanCustomers := CleanCustomers(customers);
    var cleanProducts := CleanProducts(products, medianOf);
    var cleanSales := CleanSales(sales, cleanCustomers, cleanProducts, today);
    var price;
    s, price := FactRowSource(cleanSales, cleanProducts, f);
    CleanSalesSound(sales, cleanCustomers, cleanProducts, today, s);
    var q :| q in cleanProducts && q.productId == s.productId;
    assert q.unitPrice in PricesOf(cleanProducts, s.productId);
    p :| p in cleanProducts && s.productId.Some? && p.productId == s.productId && p.unitPrice == price;
  }

  /**
   * Referential closure: every fact row names a customer of `dim_customer`
   * and a product of `dim_product`, and was sold no later than `today`.
   */
  lemma FactRefersToDimensions(customers: seq<Customer>, products: seq<Product>, sales: seq<Sale>,
                               medianOf: string -> Option<real>, today: int, f: FactSale)
    requires f in RunPipeline(customers, products, sales, medianOf, today).factSales
    ensures var star := RunPipeline(customers, products, sales, medianOf, today);
      && f.customerId.Some? && (exists d :: d in star.dimCustomer && d.customerId == f.customerId)
      && f.productId.Some? && (exists d :: d in star.dimProduct && d.productId == f.productId)
      && f.saleDate.Some? && f.saleDate.value <= today
  {
    var cleanCustomers := CleanCustomers(customers);
    var cleanProducts := CleanProducts(products, medianOf);
    var s, p := PipelineFactSource(customers, products, sales, medianOf, today, f);
    CleanSalesSound(sales, cleanCustomers, cleanProducts, today, s);
    var c :| c in cleanCustomers && c.customerId == s.customerId;
    DimCustomerOf(cleanCustomers, c);
    DimProductOf(cleanProducts, p);
  }

  /**
   * A sale with a positive quantity and price and a NULL or in-range
   * discount is priced consistently: the amount before discount is
   * quantity times price and, when the discount is present, the discount and
   * the total lie in [0, amount] and add up to it; a NULL discount leaves
   * both NULL.
   */
  lemma PricedSaleConsistent(s: Sale, price: real)
    requires s.quantity.Some? && s.quantity.value > 0 && price > 0.0
    requires s.discountPercent.Some? ==> 0 <= s.discountPercent.value <= MaxDiscount
    ensures FactAmountsHold(PriceSale(s, Some(price)))
  {
    var f := PriceSale(s, Some(price));
    if s.discountPercent.Some? {
      assert DiscountWithinAmount(f) by {
        AmountsBounded(s.quantity.value, price, s.discountPercent.value);
      }
    }
  }

  /** The invariants of a row of `fact_sales`. */
  predicate FactAmountsHold(f: FactSale) {
    && f.quantity.Some? && f.quantity.value > 0
    && f.unitPrice.Some? && f.unitPrice.value > 0.0
    && f.amountBeforeDiscount == Some(Times(f.quantity.value, f.unitPrice.value))
    && (f.discountPercent.Some? ==> 0 <= f.discountPercent.value <= MaxDiscount && DiscountWithinAmount(f))
    && (f.discountPercent.Some? ==>
          f.discountAmount == Some(PercentOf(f.amountBeforeDiscount.value, f.discountPercent.value)))
    && (f.discountPercent.None? ==> f.discountAmount.None? && f.totalAmount.None?)
  }

  /** The discount and the total are present, lie in [0, amount] and add up to the amount. */
  predicate DiscountWithinAmount(f: FactSale) {
    && f.amountBeforeDiscount.Some? && f.discountAmount.Some? && f.totalAmount.Some?
    && f.totalAmount.value + f.discountAmount.value == f.amountBeforeDiscount.value
    && 0.0 <= f.discountAmount.value <= f.amountBeforeDiscount.value
    && 0.0 <= f.totalAmount.value <= f.amountBeforeDiscount.value
  }

  /** Every row of `fact_sales` the pipeline produces satisfies the fact invariants. */
  lemma FactAmountsConsistent(customers: seq<Customer>, products: seq<Product>, sales: seq<Sale>,
                              medianOf: string -> Option<real>, today: int, f: FactSale)
    requires f in RunPipeline(customers, products, sales, medianOf, today).factSales
    ensures FactAmountsHold(f)
  {
    var s, p := PipelineFactSource(customers, products, sales, medianOf, today, f);
    CleanSalesSound(sales, CleanCustomers(customers), CleanProducts(products, medianOf), today, s);
    CleanProductIsClean(products, medianOf, p);
    PricedSaleConsistent(s, p.unitPrice.value);
  }

  function ProductIdOf(p: Product): Option<int> {
    p.productId
  }

  /** Cleaning products keeps product ids that were unique unique. */
  lemma CleanProductsKeepIdsUnique(products: seq<Product>, medianOf: string -> Option<real>)
    requires UniqueKeys(ProductKeys(products))
    ensures UniqueKeys(ProductKeys(CleanProducts(products, medianOf)))
  {
    ColumnUnique(ProductKeys(products), products, ProductIdOf);
    FilterKeepsDistinct(products, HasPositivePrice, ProductIdOf);
    var kept := KeepPositivePrice(products);
    ColumnUnique(ProductKeys(CleanProducts(products, medianOf)), kept, ProductIdOf);
  }

  /**
   * With product ids unique in the input, `fact_sales` holds exactly one
   * row per cleaned sale, so its sale_ids are distinct.
   */
  lemma FactSaleIdsUnique(customers: seq<Customer>, products: seq<Product>, sales: seq<Sale>,
                          medianOf: string -> Option<real>, today: int)
    requires UniqueKeys(ProductKeys(products))
    ensures var star := RunPipeline(customers, products, sales, medianOf, today);
      var cleanSales := CleanSales(sales, CleanCustomers(customers), CleanProducts(products, medianOf), today);
      && |star.factSales| == |cleanSales|
      && forall a, b :: 0 <= a < b < |star.factSales| ==> star.factSales[a].saleId != star.factSales[b].saleId
  {
    var cleanProducts := CleanProducts(products, medianOf);
    var cleanSales := CleanSales(sales, CleanCustomers(customers), cleanProducts, today);
    CleanProductsKeepIdsUnique(products, medianOf);
    FactRowsOnePerSale(cleanSales, cleanProducts);
  }
}

=== FILE: wrappers.dfy ===
/** A nullable column value: `None` is SQL NULL. */
module Wrappers {

  datatype Option<T> = None | Some(value: T) {

    /** The value, or `default` when NULL (a DataFrame `fillna` on one cell). */
    function GetOr(default: T): T {
      match this
      case Some(v) => v
      case None => default
    }
  }
}
